=== FILE: README.md ===
# Laaylow description rewording pipeline — a Dafny model

Laaylow rewrites the product descriptions held in the first column of an
Excel workbook. Three scripts run one after the other:

1. `extract.py` writes every data row's first-column cell to its own *unit
   file*, `row_<N>_col_<label>.txt`, where `N` is the spreadsheet row number
   (the header is row 1, so the first data row is row 2) and `<label>` is the
   column label with spaces turned into underscores.
2. `process_descriptions.py` lists a folder of unit files, orders them by the
   row number in their name, rewords each one through a language-model
   backend and writes the result under the same name into a second folder
   when the result is non-empty. With `edit_post_paragraph` set to `True` the
   whole unit goes to the backend in one call (mode `WholeUnit`); with the
   default `False` only the interiors of `<p>…</p>` paragraphs are reworded,
   one call per paragraph, and the rest of the markup is kept (mode
   `ParagraphsOnly`). The setting's name suggests the opposite mapping; the
   model follows the code.
3. `insert.py` copies the workbook to `*_new.xlsx`, reads every unit file of
   a folder back, parses the row number out of each name with its own parser,
   and writes each file's text into the first-column cell of that row of the
   copy.

The model is pure functional Dafny. The file system is a
`map<string, string>` from names to contents together with a directory
listing (a sequence, in whatever order the system returns it); the workbook
is a `Table` of column labels and rows, each row a first-column cell plus the
other cells, every cell held as the text `str()` gives it; the language-model
backend is a function parameter `Backend = string -> Option<string>`
(`None` stands for the exception branch that returns `None`). Files are
written in text mode on a POSIX system, so the text is stored as given, and
read back in text mode with universal newlines, so every `\r\n` and every
lone `\r` comes back as `\n` (`PyIo.ReadText`).

Modules, one per file:

- `Wrappers` (`wrappers.dfy`): `Option`.
- `PyIo` (`pyio.dfy`): what a text-mode read does to line endings.
- `PyText`, `PyInt`, `PyPath`: the pieces of Python's string, integer and
  path library the scripts use — `strip`, `startswith`, `endswith`,
  `str.replace`, `str.split`, `int()` on digit strings, `str()` of a
  natural number, and `os.path.splitext`.
- `Tables` (`tables.dfy`): the workbook as read by pandas.
- `RowIds` (`rowids.dfy`): the unit-file naming protocol shared by all three
  scripts, and the two parsers that read the row number back.
- `Paragraphs` (`paragraphs.dfy`): `extract_and_reinsert_paragraphs` — the
  non-greedy `<p>(.*?)</p>` scan with `re.DOTALL`, the tag removal
  `<.*?>` (which does not cross a newline), the strip, the fallback to the
  original paragraph and the `re.sub` reinsertion with its result queue.
- `Batch` (`batch.dfy`): `process_extracted_descriptions` and the local
  model's `paraphrase: ` clean-up.
- `Extract` (`extract.dfy`): `extract_descriptions`.
- `Insert` (`insert.dfy`): `insert_descriptions`.
- `Pipeline` (`pipeline.dfy`): the three scripts composed.

The central results are `Pipeline.ExtractThenInsertUnchanged` and
`Pipeline.ExtractRewordInsert`. The first says that inserting a freshly
extracted folder counts every row and gives the copy the original header and
cells, except that each description comes back as text mode reads it; a
table whose descriptions hold no `\r` comes back exactly. The second says that
extracting, rewording paragraph by paragraph and inserting gives the original
table with each non-empty description's paragraphs reworded (again through
text-mode reads) and everything else kept, and counts the non-empty
descriptions. Both are statements about tables whose cells are already the
`str()` texts pandas produces. The real round trip through a workbook is
coarser than that: the extractor writes `str(cell)`, so an empty cell is
written as `nan` and a number as its decimal text, and the merger stores that
text back into the cell. An empty or numeric description therefore returns to
the workbook as a text cell (`"nan"`, `"12.5"`), which the model does not
distinguish from the original.

## Model

| member | source | states |
|---|---|---|
| PyIo.ReadText | process_descriptions.py:152-153 | a text-mode read returns no `\r`, returns a text without `\r` unchanged, is empty exactly when the file is, and never lengthens the text |
| PyIo.ReadTextIsReplace | insert.py:48-49 | the read equals replacing every `\r\n` by `\n` and then every remaining `\r` by `\n`, the universal-newlines translation |
| PyText.Strip | process_descriptions.py:82 | `str.strip()`: the result has no leading or trailing whitespace and is the input with only a whitespace prefix and a whitespace suffix removed |
| PyText.StripOfStripped | process_descriptions.py:82 | stripping a text that has no surrounding whitespace leaves it unchanged |
| PyText.ReplaceChar | extract.py:59 | `str.replace` of one character: same length, every occurrence of the character replaced, every other position kept |
| PyText.ReplaceAllFacts | insert.py:32 | `str.replace` with a non-empty pattern leaves a text without the pattern unchanged, and lengthens a text with the pattern when the replacement is longer |
| PyText.ReplaceAllTrailing | insert.py:32 | replacing a pattern that occurs only as the suffix of a text replaces just that suffix |
| PyText.ReplaceAllAtFront | insert.py:32 | a pattern at the front of a text is replaced, and replacing goes on over the rest of the text |
| PyText.ReplaceAllFirst | insert.py:32 | for a pattern with no proper prefix that is also a suffix, the first occurrence is replaced, the text before it is kept, and replacing goes on over all of the text after it, so every occurrence is replaced and not only one |
| PyText.SplitOnPieces | process_descriptions.py:140 | `str.split(sep)` yields pieces free of the separator that join back, with the separator, into the input |
| PyText.SplitOnJoin | insert.py:45 | splitting a separator-free list of pieces joined by the separator gives the pieces back (the other direction of the split/join round trip) |
| PyText.SplitTwoFields | insert.py:45-46 | the first two fields of `a_b_rest` are `a` and `b`, whatever follows |
| PyInt.ParseInt | process_descriptions.py:141 | `int()` on a field succeeds exactly when the field is a non-empty string of ASCII digits |
| PyInt.NatToStr | extract.py:59 | the decimal text of a number is a non-empty digit string with no leading zero unless the number is zero |
| PyInt.ParseNatToStr | insert.py:46 | reading back the decimal text of a number with `int()` gives the number |
| PyInt.NatToStrOfCanonical | insert.py:46 | a canonical digit string is the decimal text of its value (the other direction of the round trip) |
| PyPath.SplitExtRoot | insert.py:44 | `os.path.splitext(...)[0]` is a prefix of the name; when it is shorter the name continues with a `.` and a plain extension, and the last path component has a character other than a dot before that `.` (a leading dot, as in `.profile`, starts no extension); when it is the whole name, every `.` in the last path component has only dots before it in that component |
| PyPath.SplitExtRootOfTxt | insert.py:44 | a name ending in `.txt` loses the `.txt` exactly when the last path component has a non-dot character before that `.`; otherwise (a name like `.txt` or `..txt`) the root is the whole name |
| RowIds.SafeLabel | extract.py:59 | the label in a file name has the label's length, contains no space, has `_` wherever the label has a space and keeps every other character |
| RowIds.SecondFieldOf | process_descriptions.py:138-143 | the batch driver's key of a name `a_b…` (no `_` in `a` or `b`) is the integer `b` denotes, or +infinity when `int(b)` fails, whatever follows the second `_`; the merger's parser (insert.py:45-46) applies the same field rule to the name without its extension |
| RowIds.NoSecondField | insert.py:44-46 | a name without `_` has no second field: the batch driver sorts it last and the merger gets no row number from it |
| RowIds.UnitNameRoundTrip | extract.py:59 | every generated name passes the `row_`/`.txt` filter of both readers, the batch driver's parser (process_descriptions.py:138-143) reads row number index + 2 from it, and so does the merger's parser (insert.py:44-46), for every column label |
| RowIds.UnitFileNameInjective | extract.py:59 | two different data rows never get the same file name, whatever their labels |
| RowIds.ParsersDisagree | process_descriptions.py:138-143 | the two readers' parsers differ: `row_5.txt` is unparsable for the sort key (it sorts last) but names row 5 for the merger (insert.py:44-46) |
| Paragraphs.FindFrom | process_descriptions.py:73 | the search finds the first occurrence of the pattern at or after the start, and reports none only when there is none |
| Paragraphs.NextMatch | process_descriptions.py:73 | the next match of `<p>(.*?)</p>` starts at the first `<p>` that has a `</p>` after it and ends at the first `</p>` after that `<p>`; no match means no `<p>` is followed by a `</p>` |
| Paragraphs.Parse | process_descriptions.py:73 | the matches cut the text into gaps and paragraph interiors, one more gap than interiors, that render back into exactly the text; each match is the leftmost shortest one: no gap before a match contains `<p>`, no interior contains `</p>`, and in the last gap no `<p>` is followed by a `</p>` |
| Paragraphs.TagClose | process_descriptions.py:81 | the end of the shortest `<.*?>` match is the first `>`, with no newline before it; no match means every `>` has a newline before it |
| Paragraphs.TagCloseAt | process_descriptions.py:81 | the lazy `.*?` ends a tag at its first `>` when no newline comes before it |
| Paragraphs.RemoveTagsIsTagFree | process_descriptions.py:81 | after `re.sub(r'<.*?>', '', …)` no `<` is followed by a `>` on the same line; what the removal keeps is pinned down by the four rows below |
| Paragraphs.RemoveTagsWithoutAngle | process_descriptions.py:81 | a text without `<` is left unchanged by the tag removal |
| Paragraphs.RemoveTagsKeepsPlainPrefix | process_descriptions.py:81 | the text before the first `<` is kept as it is, whatever follows it |
| Paragraphs.RemoveTagsAtTag | process_descriptions.py:81 | a one-line tag at the front is deleted and the removal goes on after its `>` |
| Paragraphs.RemoveTagsDropsTag | process_descriptions.py:81 | a one-line tag is deleted and only the tag: the text before it and the text after it stay, so `Hello <b>world</b>` becomes `Hello world` |
| Paragraphs.RemoveTagsUnclosed | process_descriptions.py:81 | a `<` whose tag does not close on its line stays, and the removal goes on after it |
| Paragraphs.PlainIsTagFree | process_descriptions.py:81-82 | the text sent to the backend carries no tag and no surrounding whitespace; it is the stripped result of the tag removal, which keeps the text outside tags (RemoveTagsKeepsPlainPrefix, RemoveTagsDropsTag, RemoveTagsUnclosed) |
| Paragraphs.PlainOfPlainText | process_descriptions.py:81-82 | a paragraph that is already plain, stripped text is sent to the backend as it is |
| Paragraphs.Substitute | process_descriptions.py:89-94 | `re.sub` with `replace_paragraph`: the `match.group(0)` fallback fires once per match beyond the queue's length, and with a queue as long as the match list the result is the layout with the queue's texts as interiors |
| Paragraphs.FallbackNeverFires | process_descriptions.py:89-94 | the result queue holds one result per match, so the `match.group(0)` fallback never fires |
| Paragraphs.ExtractAndReinsert | process_descriptions.py:68-95 | the result keeps every gap and every `<p>`/`</p>` of the input and replaces the k-th interior by the k-th result (the backend's non-empty answer, else the original interior); it is empty exactly when the input is |
| Paragraphs.NoParagraphsUnchanged | process_descriptions.py:74-75 | a text in which no `<p>` is followed by a `</p>` is returned unchanged, whatever the backend |
| Paragraphs.AllFailUnchanged | process_descriptions.py:83-86 | a backend that always fails or answers `""` leaves the text unchanged |
| Paragraphs.OnlyCalledArgumentsMatter | process_descriptions.py:79-82 | the output depends on the backend only through its answers on the plain interiors, one call per match; backends agreeing there give the same text |
| Batch.FilterUnits | process_descriptions.py:136 | the comprehension keeps exactly the listed `row_…txt` names, each as often as listed, and nothing else |
| Batch.FilterUnitsCons | process_descriptions.py:136 | the comprehension goes through the listing front to back: the first name, when kept, comes first and is followed by what is kept of the rest, so the kept names come in listing order |
| Batch.FilterUnitsWithKey | process_descriptions.py:136 | the kept names with a given row number are the listed unit names with that row number, in listing order |
| Batch.InsertByKey | process_descriptions.py:145 | inserting into a key-sorted list keeps it sorted, adds exactly the one name and puts it before the names it ties with |
| Batch.SortBy | process_descriptions.py:145 | `sorted(…, key=…)` returns a permutation of its input in ascending key order in which names with equal keys keep their input order |
| Batch.ProcessOrderContents | process_descriptions.py:136-145 | the visiting order holds exactly the listed `row_…txt` names, each as often as listed, sorted by row number; the names with one row number are the listed unit names with that number, in listing order |
| Batch.UnparsableSortLast | process_descriptions.py:142-145 | every name whose row number cannot be parsed comes after every name whose row number can |
| Batch.ProcessUnit | process_descriptions.py:151-173 | one loop step on the file as text mode reads it: an unreadable file is reported; otherwise the result is saved under the same name exactly when the reworded text is non-empty; in whole-unit mode it fails exactly when the backend answers `None` or `""` and otherwise saves the backend's answer; in paragraph mode it fails exactly when the file is empty and otherwise saves the paragraph rewording |
| Batch.OutcomesWritten | process_descriptions.py:163-165 | after the loop a file is in the output folder exactly when a visited name was saved under it, holding that unit's reworded text |
| Batch.BatchOutputFolder | process_descriptions.py:130-173 | a run into an empty folder leaves exactly the listed unit names whose rewording was saved, each with its reworded text, whatever order the sort visits them in |
| Batch.AllFailCopiesUnits | process_descriptions.py:159-165 | in paragraph mode a backend that always fails copies every readable non-empty unit as text mode reads it, so a unit without `\r` is copied unchanged |
| Batch.StripParaphrasePrefix | process_descriptions.py:121-123 | a reply starting with `paraphrase: ` loses that prefix and is stripped; any other reply is kept as it is |
| Extract.UnitsOf | extract.py:56-61 | one unit file per data row |
| Extract.ExtractDescriptions | extract.py:38-62 | a missing workbook and an empty table write nothing; otherwise one file per data row is written and that many are reported |
| Extract.UnitsOfDistinct | extract.py:56-59 | the files of one extraction have pairwise different names |
| Extract.DistinctNamesCount | extract.py:62 | K files with pairwise different names leave K names in the folder, so the reported count is the number of files that exist |
| Extract.WriteUnitsContents | extract.py:56-61 | writing files with different names adds exactly their names to the folder, each holding its file's content, and leaves every other file alone |
| Extract.UnitsOfIdentifiers | extract.py:56-61 | the file for data row i holds that row's first-column cell, passes the unit-file filter, and its name reads back as row i + 2 |
| Extract.NamesAreRows | extract.py:59 | when every file's name reads back as its position plus two, every name in the folder reads back as a row number in 2..K+1 and names the file of that row |
| Extract.ExtractionIdentifiers | extract.py:38-62 | extracting K rows writes K distinct files; file i holds row i's cell and reads back as row i + 2; every written name belongs to exactly one row; the report equals the number of distinct files |
| Extract.ExtractionFolder | extract.py:54-61 | the output folder gains exactly the row files, the file for row i holds its cell, and files already there under other names are kept |
| Insert.NewPath | insert.py:32 | the copy's path differs from the original exactly when the original path contains `.xlsx` |
| Insert.NewPathOfWorkbook | insert.py:32 | a path mentioning `.xlsx` only as its extension gets `_new` put before the extension |
| Insert.NewPathEveryWorkbook | insert.py:32 | after the first `.xlsx` of a path, the replacement goes on over the rest of the path |
| Insert.NewPathOfDoubleWorkbook | insert.py:32 | a path ending in `.xlsx.xlsx` gets `_new` before both extensions, as `a.xlsx.xlsx` becomes `a_new.xlsx_new.xlsx` |
| Insert.Contribution | insert.py:40-51 | a listed file adds an entry exactly when it passes the `row_`/`.txt` filter, its stem's second field reads as an integer and it can be read; the entry is that integer and the file's content as text mode reads it |
| Insert.CollectCovers | insert.py:49 | every contributed row number has an entry in `updates` |
| Insert.CollectFrom | insert.py:49 | every entry of `updates` comes from one of the contributions |
| Insert.CollectLastWins | insert.py:49 | the entry for a row number is its last contribution |
| Insert.PendingEditsSpec | insert.py:39-51 | `updates` holds an entry exactly for the row numbers of listed, parsable, readable unit files, each entry the content of such a file |
| Insert.LastListedWins | insert.py:40-49 | when several listed files name the same row, the one listed last provides its text, as text mode reads it |
| Insert.MergedRows | insert.py:56-60 | merging keeps the number of rows and every cell outside the first column; a row with a pending text gets it in its first column, any other row is unchanged |
| Insert.MergeIdempotent | insert.py:56-60 | merging the same texts into the merged rows again changes nothing |
| Insert.MergeNothing | insert.py:56-60 | with no pending texts every row is kept and the count is zero |
| Insert.CountUpdated | insert.py:55-60 | the printed count is the number of rows among the first n that have a pending text; so it never exceeds n, reaches it exactly when every row has one, and is zero exactly when none has |
| Insert.ApplyUpdates | insert.py:53-60 | the index loop as written computes the merged rows and the printed count |
| Insert.InsertDescriptions | insert.py:24-66 | a missing folder stops the run first; an unreadable workbook, one with no column, or a path whose copy would be the original (`shutil.copyfile` refuses a same-file copy) is a file error; otherwise the copy is written to `NewPath(path)`, keeps the header and row count, gives the first cell of each row with a text read for it that text and keeps every other cell and row, and reports the number of rows that took a text |
| Insert.NoUnitFilesNoChange | insert.py:39-63 | a folder in which no file contributes leaves the copy equal to the original and reports zero updates |
| Pipeline.ReadBackWritten | insert.py:39-51 | the merger reading a freshly written unit folder gets, for each row, the content of the file written for it as text mode reads it |
| Pipeline.WrittenRowsEdited | insert.py:39-51 | every written file comes back under its row number |
| Pipeline.WrittenEditsAreContents | insert.py:39-51 | every text read back under a row number is the content of the file written for that row, as text mode reads it |
| Pipeline.ExtractedEdits | insert.py:39-51 | reading a freshly extracted folder back gives every data row a text: its own first-column cell as text mode reads it |
| Pipeline.InsertIntoCopy | insert.py:24-63 | a run with a readable workbook that has a column, on a path mentioning `.xlsx`, writes the merged rows and their count to the copy |
| Pipeline.MergeReadBack | insert.py:56-60 | texts waiting for every row, each its cell as text mode reads it, turn each first cell into its read-back form, count every row, and leave cells without `\r` as they are |
| Pipeline.ExtractThenInsertUnchanged | insert.py:24-63 | inserting a freshly extracted, unchanged folder writes a copy with the original header and other cells and each description as text mode reads it, and reports every data row as updated; a table without `\r` in its descriptions is reproduced exactly |
| Pipeline.ProcessedFolder | process_descriptions.py:130-173 | rewording a freshly extracted folder in paragraph mode writes a file exactly for the non-empty units, under the same name, holding the unit as text mode reads it with the paragraphs reworded, and nothing else |
| Pipeline.ReadBackProcessed | insert.py:39-51 | reading the reworded folder back, a row gets a text exactly when its unit was non-empty, and the text is the unit with its paragraphs reworded, read in text mode at both ends |
| Pipeline.ProcessedFilledRowsEdited | insert.py:39-51 | every non-empty unit comes back reworded under its row number |
| Pipeline.EditsOfOutput | insert.py:39-51 | reading back a folder that holds reworded versions of some unit files and nothing else, every text under row number i + 2 belongs to the present file i and is its reworded text as text mode reads it |
| Pipeline.ProcessedEditsReworded | insert.py:39-51 | every text read back from the reworded folder belongs to a non-empty unit and is that unit with its paragraphs reworded, read in text mode at both ends |
| Pipeline.CountOfFilled | insert.py:55-60 | when exactly the filled rows have pending texts, the printed count is the number of filled rows |
| Pipeline.MergeReworded | insert.py:56-60 | texts waiting exactly for the rows with a non-empty first cell, each that cell reworded, merge into the reworded table |
| Pipeline.ExtractRewordInsert | insert.py:24-63 | extract, reword paragraph by paragraph, insert: the copy holds the original table with every non-empty description's paragraphs reworded (the description read in text mode before the rewording, the result read in text mode after it) and every other cell kept, and the count is the number of non-empty descriptions |

## Left out

- Configuration and globals (process_descriptions.py:9-66): the API key, the prompts, the model and device selection. They only choose the backend, and the backend is a parameter.
- The backends themselves (process_descriptions.py:96-128): the OpenAI chat call and the local T5 generation are foreign calls. They are the `Backend` parameter. A backend may answer `None` (the exception branches) or any text. The OpenAI reply's `strip()` (line 110) is part of that answer. The local reply's `paraphrase: ` clean-up is modelled separately as `Batch.StripParaphrasePrefix`.
- File I/O: reads, writes, `os.makedirs` and `shutil.copyfile`. Folders are maps from names to contents. Text-mode reads are modelled by their newline translation (`PyIo.ReadText`); writes are modelled as on POSIX, where text mode writes `\n` as it is (on Windows it would become `\r\n`). A directory listing is an arbitrary sequence related to its folder only by holding the same names. A file that cannot be read as UTF-8 is absent from the map. Write failures are not modelled.
- The console messages (`print`) are not modelled; only the update count insert.py prints and the count extract.py reports are.
- pandas: reading and writing `.xlsx` and converting cells with `str()`. A table's cells are their `str()` text, so an empty cell reads as the text `nan`. Re-reading the copy at insert.py:54 gives the table that was copied. Writing it back (line 62) is the `Merged` outcome. The Excel error branch (lines 65-66) is not modelled.
- PyInt.ParseInt: accepts only ASCII digit strings. Python's `int()` also accepts a sign, surrounding whitespace, underscores between digits and non-ASCII decimal digits. Extracted names never contain these, so only names written by hand are affected.
- PyPath.SplitExtRoot: handles only `/` as the directory separator, not the Windows `\`.
- Batch.ProcessAll: a missing input folder makes `os.listdir` raise before the loop starts. This is not modelled; the listing is given.
- A listing may hold the same name twice. The batch driver then rewords that unit twice and the later write wins, which Batch.OutcomesWritten covers. The end-to-end lemmas ask only that the listing holds the folder's names; it may hold a name more than once. Their unit files have pairwise different names, as the files of one extraction do (Extract.UnitsOfDistinct).
- Backend: modelled as a deterministic function, so the same text always gets the same answer. The OpenAI backend samples at temperature 0.5 (process_descriptions.py:107), so two calls on the same text can answer differently. Every statement that compares two calls on equal arguments (Paragraphs.OnlyCalledArgumentsMatter, and the end-to-end lemmas that identify a unit's rewording with the reworded cell) holds only for a deterministic backend, such as the local model's beam search.
- ExtractDescriptions: assumes every label can form a file name. A label that is not a string (a numeric header) makes `.replace` raise `AttributeError` at extract.py:59. A label with `/` names a file in a missing subfolder, and one with a NUL character is refused, so `open` raises at extract.py:60 after the folder was created at line 54. Neither error is caught, and every row uses the same label, so the run stops at the first row with the folder created and no file written; the model writes every row's file instead.
- `install_requirements` and `create_requirements_file` (extract.py:6-26, insert.py:9-22) and the `__main__` blocks: package installation and script entry points. They are outside the data path.
- Concurrency and timing: none in the source.

=== FILE: batch.dfy ===
/** The batch driver of process_descriptions.py
    (`process_extracted_descriptions`): pick the unit files out of a directory
    listing, order them by row number, reword each one and write the result
    under the same name when it is non-empty. */
module Batch {
  import opened Wrappers
  import opened PyText
  import opened RowIds
  import opened PyIo
  import opened Paragraphs

  /** The `edit_post_paragraph` setting: reword the whole unit in one call, or
      only the `<p>` interiors. */
  datatype Mode = WholeUnit | ParagraphsOnly

  // ---------------------------------------------------------------------------
  // Selecting and ordering the unit files
  // ---------------------------------------------------------------------------

  /** The list comprehension keeping names that start with `row_` and end with
      `.txt`: it keeps every such name as often as it is listed, in listing
      order, and nothing else. */
  function FilterUnits(names: seq<string>): (r: seq<string>)
    ensures forall x :: x in r <==> x in names && IsUnitName(x)
    ensures forall x :: multiset(r)[x] == if IsUnitName(x) then multiset(names)[x] else 0
  {
    if names == [] then []
    else
      assert names == [names[0]] + names[1..];
      (if IsUnitName(names[0]) then [names[0]] else []) + FilterUnits(names[1..])
  }

  /** The comprehension goes through the listing front to back: the first
      listed name comes first when it is kept, followed by what is kept of
      the rest. Together with `FilterUnits([]) == []` this fixes the kept
      names and their order. */
  lemma {:induction false} FilterUnitsCons(x: string, s: seq<string>)
    ensures FilterUnits([x] + s) == (if IsUnitName(x) then [x] else []) + FilterUnits(s)
  {
    assert ([x] + s)[1..] == s;
  }

  /** Picking the names with one key commutes with the comprehension: the
      kept names with key `k` are the listed names with key `k` that are unit
      names, in listing order. */
  lemma {:induction false} FilterUnitsWithKey(names: seq<string>, key: KeyOf, k: RowKey)
    ensures WithKey(FilterUnits(names), key, k) == FilterUnits(WithKey(names, key, k))
    decreases |names|
  {
    if names != [] {
      var x := names[0];
      var rest := names[1..];
      var fr := FilterUnits(rest);
      var wr := WithKey(rest, key, k);
      FilterUnitsWithKey(rest, key, k);
      FilterUnitsCons(x, rest);
      WithKeyCons(x, rest, key, k);
      assert names == [x] + rest;
      if IsUnitName(x) {
        WithKeyCons(x, fr, key, k);
      } else {
        assert [] + fr == fr;
      }
      if key(x) == k {
        FilterUnitsCons(x, wr);
      } else {
        assert [] + wr == wr;
      }
    }
  }

  /** Python's ordering on `get_row_number` values: integers in numeric order,
      all below `float('inf')`, which ties with itself. */
  predicate KeyLe(a: RowKey, b: RowKey) {
    b.Infinite? || (a.Finite? && a.n <= b.n)
  }

  /** A key function in the sense of `sorted(..., key=...)`. */
  type KeyOf = string -> RowKey

  predicate Sorted(s: seq<string>, key: KeyOf) {
    forall i, j :: 0 <= i < j < |s| ==> KeyLe(key(s[i]), key(s[j]))
  }

  /** The names of `s` whose key is `k`, in their order in `s`. */
  function WithKey(s: seq<string>, key: KeyOf, k: RowKey): seq<string> {
    if s == [] then []
    else (if key(s[0]) == k then [s[0]] else []) + WithKey(s[1..], key, k)
  }

  lemma {:induction false} WithKeyCons(x: string, s: seq<string>, key: KeyOf, k: RowKey)
    ensures WithKey([x] + s, key, k) == (if key(x) == k then [x] else []) + WithKey(s, key, k)
  {
    assert ([x] + s)[1..] == s;
  }

  /** Inserts `x` into a sorted list before the first name whose key is not
      below `x`'s key, so that `x` precedes the names it ties with. */
  function InsertByKey(x: string, s: seq<string>, key: KeyOf): (r: seq<string>)
    requires Sorted(s, key)
    ensures Sorted(r, key)
    ensures multiset(r) == multiset(s) + multiset{x}
    ensures forall k :: WithKey(r, key, k) == WithKey([x] + s, key, k)
  {
    if s == [] then
      [x]
    else if KeyLe(key(x), key(s[0])) then
      InsertFrontSorted(x, s, key);
      [x] + s
    else
      var rest := InsertByKey(x, s[1..], key);
      assert s == [s[0]] + s[1..];
      InsertBehindSorted(x, s, rest, key);
      InsertBehindWithKey(x, s, rest, key);
      [s[0]] + rest
  }

  lemma {:induction false} InsertFrontSorted(x: string, s: seq<string>, key: KeyOf)
    requires Sorted(s, key) && s != []
    requires KeyLe(key(x), key(s[0]))
    ensures Sorted([x] + s, key)
  {
    var r := [x] + s;
    forall i, j | 0 <= i < j < |r|
      ensures KeyLe(key(r[i]), key(r[j]))
    {
      if i == 0 {
        assert r[j] == s[j - 1];
        assert KeyLe(key(s[0]), key(s[j - 1])) || j == 1;
      } else {
        assert r[i] == s[i - 1] && r[j] == s[j - 1];
      }
    }
  }

  lemma {:induction false} InsertBehindSorted(x: string, s: seq<string>, rest: seq<string>, key: KeyOf)
    requires Sorted(s, key) && s != []
    requires !KeyLe(key(x), key(s[0]))
    requires Sorted(rest, key) && multiset(rest) == multiset(s[1..]) + multiset{x}
    ensures Sorted([s[0]] + rest, key)
  {
    var r := [s[0]] + rest;
    forall j | 0 <= j < |rest|
      ensures KeyLe(key(s[0]), key(rest[j]))
    {
      assert rest[j] in multiset(rest);
      if rest[j] != x {
        assert rest[j] in s[1..];
        var m :| 0 <= m < |s[1..]| && s[1..][m] == rest[j];
        assert s[m + 1] == rest[j];
      }
    }
    forall i, j | 0 <= i < j < |r|
      ensures KeyLe(key(r[i]), key(r[j]))
    {
      assert r[j] == rest[j - 1];
      if i > 0 {
        assert r[i] == rest[i - 1];
      }
    }
  }

  lemma {:induction false} InsertBehindWithKey(x: string, s: seq<string>, rest: seq<string>, key: KeyOf)
    requires s != []
    requires !KeyLe(key(x), key(s[0]))
    requires forall k :: WithKey(rest, key, k) == WithKey([x] + s[1..], key, k)
    ensures forall k :: WithKey([s[0]] + rest, key, k) == WithKey([x] + s, key, k)
  {
    forall k
      ensures WithKey([s[0]] + rest, key, k) == WithKey([x] + s, key, k)
    {
      assert s == [s[0]] + s[1..];
      InsertBehindWithKeyAt(x, s[0], s[1..], rest, key, k);
    }
  }

  /** `InsertBehindWithKey` for one key, with `s` given as head `h` and tail
      `t`: `x` and `h` have different keys, so at most one of them is kept
      and their order does not matter. */
  lemma {:induction false} InsertBehindWithKeyAt(x: string, h: string, t: seq<string>, rest: seq<string>, key: KeyOf, k: RowKey)
    requires key(x) != key(h)
    requires WithKey(rest, key, k) == WithKey([x] + t, key, k)
    ensures WithKey([h] + rest, key, k) == WithKey([x] + ([h] + t), key, k)
  {
    var tail := WithKey(t, key, k);
    var px := if key(x) == k then [x] else [];
    var ph := if key(h) == k then [h] else [];
    WithKeyCons(h, rest, key, k);
    WithKeyCons(x, t, key, k);
    assert WithKey([h] + rest, key, k) == ph + (px + tail);
    WithKeyCons(x, [h] + t, key, k);
    WithKeyCons(h, t, key, k);
    assert WithKey([x] + ([h] + t), key, k) == px + (ph + tail);
    assert px == [] || ph == [];
  }

  /** `sorted(names, key=key)`: the names in ascending key order, every name
      kept as often as given, and names with equal keys in their given order
      (Python's sort is stable). */
  function SortBy(names: seq<string>, key: KeyOf): (r: seq<string>)
    ensures Sorted(r, key)
    ensures multiset(r) == multiset(names)
    ensures forall k :: WithKey(r, key, k) == WithKey(names, key, k)
  {
    if names == [] then []
    else
      var rest := SortBy(names[1..], key);
      var r := InsertByKey(names[0], rest, key);
      assert names == [names[0]] + names[1..];
      forall k
        ensures WithKey(r, key, k) == WithKey(names, key, k)
      {
        WithKeyCons(names[0], rest, key, k);
      }
      r
  }

  /** `sorted(extracted_files, key=get_row_number)`. */
  function SortByRow(names: seq<string>): seq<string> {
    SortBy(names, SortKey)
  }

  /** Names whose row number cannot be parsed come after all the others. */
  lemma {:induction false} UnparsableSortLast(names: seq<string>, i: nat, j: nat)
    requires i < j < |SortByRow(names)|
    requires SortKey(SortByRow(names)[i]).Infinite?
    ensures SortKey(SortByRow(names)[j]).Infinite?
  {
    var r := SortByRow(names);
    assert KeyLe(SortKey(r[i]), SortKey(r[j]));
  }

  /** The files the driver visits, in visiting order. */
  function ProcessOrder(listing: seq<string>): seq<string> {
    SortByRow(FilterUnits(listing))
  }

  /** The visiting order holds exactly the listed unit names, each as often as
      it is listed (unparsable ones included), in ascending row-number order
      with unparsable names last; names with equal row numbers keep their
      listing order. */
  lemma {:induction false} ProcessOrderContents(listing: seq<string>)
    ensures forall x :: multiset(ProcessOrder(listing))[x] == if IsUnitName(x) then multiset(listing)[x] else 0
    ensures Sorted(ProcessOrder(listing), SortKey)
    ensures forall k :: WithKey(ProcessOrder(listing), SortKey, k) == WithKey(FilterUnits(listing), SortKey, k)
    ensures forall k :: WithKey(ProcessOrder(listing), SortKey, k) == FilterUnits(WithKey(listing, SortKey, k))
  {
    forall k
      ensures WithKey(FilterUnits(listing), SortKey, k) == FilterUnits(WithKey(listing, SortKey, k))
    {
      FilterUnitsWithKey(listing, SortKey, k);
    }
  }

  // ---------------------------------------------------------------------------
  // Rewording one unit
  // ---------------------------------------------------------------------------

  /** What happened to one unit file: written under the same name in the
      output folder, reported as failed (nothing written), or not readable. */
  datatype UnitOutcome = Saved(name: string, text: string) | Failed(name: string) | Unreadable(name: string)

  /** The reworded text of one unit before the emptiness test. */
  function RewordUnit(text: string, mode: Mode, reword: Backend): Option<string> {
    match mode
    case WholeUnit => reword(text)
    case ParagraphsOnly => Some(ExtractAndReinsert(text, reword))
  }

  /** One iteration of the driver loop. `files` holds the readable input files;
      a file is read in text mode, so its line endings come back as `\n`. The
      output is written only when the reworded text is non-empty: in
      whole-unit mode a unit fails exactly when the backend answers `None` or
      `""` on the text read, and is otherwise saved with the backend's answer;
      in paragraph mode it fails exactly when the input file is empty, and is
      otherwise saved with the text read, its paragraphs reworded. */
  function ProcessUnit(name: string, files: map<string, string>, mode: Mode, reword: Backend): (r: UnitOutcome)
    ensures r.name == name
    ensures r.Unreadable? <==> name !in files
    ensures r.Saved? ==> r.text != []
    ensures name in files && mode == WholeUnit ==>
              (r.Failed? <==> reword(ReadText(files[name])) in {None, Some([])})
    ensures name in files && mode == WholeUnit && r.Saved? ==>
              reword(ReadText(files[name])) == Some(r.text)
    ensures name in files && mode == ParagraphsOnly ==>
              (r.Failed? <==> files[name] == [])
    ensures name in files && mode == ParagraphsOnly && r.Saved? ==>
              r.text == ExtractAndReinsert(ReadText(files[name]), reword)
  {
    if name !in files then
      Unreadable(name)
    else
      match RewordUnit(ReadText(files[name]), mode, reword)
      case Some(t) => if t != [] then Saved(name, t) else Failed(name)
      case None => Failed(name)
  }

  /** The outcomes of visiting the names of `order` one after the other. */
  function Outcomes(order: seq<string>, files: map<string, string>, mode: Mode, reword: Backend): (r: seq<UnitOutcome>)
    ensures |r| == |order|
    ensures forall i :: 0 <= i < |order| ==> r[i] == ProcessUnit(order[i], files, mode, reword)
  {
    seq(|order|, i requires 0 <= i < |order| => ProcessUnit(order[i], files, mode, reword))
  }

  /** The driver loop over the whole directory listing. */
  function ProcessAll(listing: seq<string>, files: map<string, string>, mode: Mode, reword: Backend): seq<UnitOutcome> {
    Outcomes(ProcessOrder(listing), files, mode, reword)
  }

  /** The output folder after the run: every saved unit written under its
      name, later writes replacing earlier ones. */
  function WriteOutputs(out: map<string, string>, outcomes: seq<UnitOutcome>): map<string, string> {
    if outcomes == [] then out
    else
      var last := outcomes[|outcomes| - 1];
      var before := WriteOutputs(out, outcomes[..|outcomes| - 1]);
      if last.Saved? then before[last.name := last.text] else before
  }

  /** Writing the outcomes of a visit: a file ends up in the output folder
      exactly when one of the visited names was saved under it, and holds that
      unit's reworded text (a name visited twice is reworded the same way
      both times). */
  lemma {:induction false} OutcomesWritten(order: seq<string>, files: map<string, string>, mode: Mode, reword: Backend)
    ensures forall x :: x in WriteOutputs(map[], Outcomes(order, files, mode, reword)) <==>
              x in order && ProcessUnit(x, files, mode, reword).Saved?
    ensures forall x :: x in WriteOutputs(map[], Outcomes(order, files, mode, reword)) ==>
              WriteOutputs(map[], Outcomes(order, files, mode, reword))[x] == ProcessUnit(x, files, mode, reword).text
    decreases |order|
  {
    if order != [] {
      var init := order[..|order| - 1];
      var r := Outcomes(order, files, mode, reword);
      assert r[..|r| - 1] == Outcomes(init, files, mode, reword);
      OutcomesWritten(init, files, mode, reword);
      assert order == init + [order[|order| - 1]];
    }
  }

  /** The output folder of a run into an empty folder: it holds a file for
      exactly the listed unit names whose rewording was saved, each with that
      unit's reworded text; the visiting order does not matter. */
  lemma {:induction false} BatchOutputFolder(listing: seq<string>, files: map<string, string>, mode: Mode, reword: Backend)
    ensures forall x :: x in WriteOutputs(map[], ProcessAll(listing, files, mode, reword)) <==>
              x in listing && IsUnitName(x) && ProcessUnit(x, files, mode, reword).Saved?
    ensures forall x :: x in WriteOutputs(map[], ProcessAll(listing, files, mode, reword)) ==>
              WriteOutputs(map[], ProcessAll(listing, files, mode, reword))[x] == ProcessUnit(x, files, mode, reword).text
  {
    var order := ProcessOrder(listing);
    ProcessOrderContents(listing);
    OutcomesWritten(order, files, mode, reword);
    forall x
      ensures x in order <==> x in listing && IsUnitName(x)
    {
      assert x in order <==> multiset(order)[x] > 0;
      assert x in listing <==> multiset(listing)[x] > 0;
    }
  }

  /** With a backend that always fails, paragraph mode copies every readable
      non-empty unit as it was read: unchanged except for its line endings,
      and entirely unchanged when it holds no `\r`. */
  lemma {:induction false} AllFailCopiesUnits(name: string, files: map<string, string>, reword: Backend)
    requires forall x :: reword(x) == None || reword(x) == Some([])
    requires name in files && files[name] != []
    ensures ProcessUnit(name, files, ParagraphsOnly, reword) == Saved(name, ReadText(files[name]))
    ensures '\r' !in files[name] ==> ProcessUnit(name, files, ParagraphsOnly, reword) == Saved(name, files[name])
  {
    AllFailUnchanged(ReadText(files[name]), reword);
  }

  // ---------------------------------------------------------------------------
  // Local-model reply clean-up
  // ---------------------------------------------------------------------------

  const ParaphrasePrefix: string := "paraphrase: "

  /** The local model's reply with a leading `paraphrase: ` removed and the
      rest stripped; a reply without that prefix is kept as is. */
  function StripParaphrasePrefix(reply: string): (r: string)
    ensures !StartsWith(reply, ParaphrasePrefix) ==> r == reply
    ensures StartsWith(reply, ParaphrasePrefix) ==>
              IsStripped(r) && exists a :: TrimmedAt(reply[|ParaphrasePrefix|..], r, a)
  {
    if StartsWith(reply, ParaphrasePrefix) then Strip(reply[|ParaphrasePrefix|..]) else reply
  }
}

=== FILE: extract.dfy ===
/** extract.py, `extract_descriptions`: one unit file per data row, holding
    that row's first-column cell, named after the row number. */
module Extract {
  import opened Wrappers
  import opened Tables
  import opened RowIds

  /** One file written by the extractor. */
  datatype UnitFile = UnitFile(name: string, content: string)

  /** How a run ends. A missing workbook (`FileNotFoundError`) and an empty
      frame both return before the output folder is created, writing nothing;
      otherwise the folder is created and the files are written in row order,
      and `reported` is the count printed at the end (`len(df)`). */
  datatype ExtractOutcome =
    | SourceMissing
    | EmptyTable
    | Extracted(files: seq<UnitFile>, reported: nat)

  /** The unit files for the rows of a table whose first column is `column`. */
  function UnitsOf(column: string, rows: seq<Row>): (fs: seq<UnitFile>)
    ensures |fs| == |rows|
  {
    seq(|rows|, i requires 0 <= i < |rows| => UnitFile(UnitFileName(i, column), rows[i].first))
  }

  /** `extract_descriptions(excel_file, output_folder)`, with the read workbook
      as `source` (`None` when the file is not found). Files are written
      exactly when the workbook was found and is not empty, and then one file
      per data row is written and that many are reported. */
  function ExtractDescriptions(source: Option<Table>): (r: ExtractOutcome)
    ensures r.SourceMissing? <==> source.None?
    ensures r.EmptyTable? <==> source.Some? && IsEmpty(source.value)
    ensures r.Extracted? ==> |r.files| == r.reported == |source.value.rows|
  {
    match source
    case None => SourceMissing
    case Some(t) =>
      if IsEmpty(t) then EmptyTable
      else Extracted(UnitsOf(t.labels[0], t.rows), |t.rows|)
  }

  /** The output folder after the files are written in order into `dir`. */
  function WriteUnits(dir: map<string, string>, fs: seq<UnitFile>): map<string, string> {
    if fs == [] then dir
    else WriteUnits(dir, fs[..|fs| - 1])[fs[|fs| - 1].name := fs[|fs| - 1].content]
  }

  /** The names of the files in `fs`. */
  function Names(fs: seq<UnitFile>): (names: set<string>)
    ensures forall i :: 0 <= i < |fs| ==> fs[i].name in names
  {
    if fs == [] then {} else Names(fs[..|fs| - 1]) + {fs[|fs| - 1].name}
  }

  predicate DistinctNames(fs: seq<UnitFile>) {
    forall i, j :: 0 <= i < j < |fs| ==> fs[i].name != fs[j].name
  }

  /** Different rows of one extraction get different file names. */
  lemma {:induction false} UnitsOfDistinct(column: string, rows: seq<Row>)
    ensures DistinctNames(UnitsOf(column, rows))
  {
    forall i, j | 0 <= i < j < |rows|
      ensures UnitsOf(column, rows)[i].name != UnitsOf(column, rows)[j].name
    {
      UnitFileNameInjective(i, j, column, column);
    }
  }

  /** `n` files with pairwise different names make `n` names. */
  lemma {:induction false} DistinctNamesCount(fs: seq<UnitFile>)
    requires DistinctNames(fs)
    ensures |Names(fs)| == |fs|
    decreases |fs|
  {
    if fs != [] {
      var init := fs[..|fs| - 1];
      assert DistinctNames(init) by {
        forall i, j | 0 <= i < j < |init| ensures init[i].name != init[j].name {
          assert init[i] == fs[i] && init[j] == fs[j];
        }
      }
      DistinctNamesCount(init);
      NamesOfPrefix(init, fs[|fs| - 1].name);
    }
  }

  /** A name that no file of `fs` carries is not among `Names(fs)`. */
  lemma {:induction false} NamesOfPrefix(fs: seq<UnitFile>, x: string)
    requires forall i :: 0 <= i < |fs| ==> fs[i].name != x
    ensures x !in Names(fs)
    decreases |fs|
  {
    if fs != [] {
      var init := fs[..|fs| - 1];
      NamesOfPrefix(init, x);
    }
  }

  /** Writing files with pairwise different names into `dir`: the folder
      gains exactly their names, each holding its file's content, and every
      other file is left alone. */
  lemma {:induction false} WriteUnitsContents(dir: map<string, string>, fs: seq<UnitFile>)
    requires DistinctNames(fs)
    ensures WriteUnits(dir, fs).Keys == dir.Keys + Names(fs)
    ensures forall x :: x in WriteUnits(dir, fs) ==> x in dir || x in Names(fs)
    ensures forall x :: x in dir && x !in Names(fs) ==> WriteUnits(dir, fs)[x] == dir[x]
    ensures forall i :: 0 <= i < |fs| ==> WriteUnits(dir, fs)[fs[i].name] == fs[i].content
    decreases |fs|
  {
    if fs != [] {
      var init := fs[..|fs| - 1];
      assert DistinctNames(init) by {
        forall i, j | 0 <= i < j < |init| ensures init[i].name != init[j].name {
          assert init[i] == fs[i] && init[j] == fs[j];
        }
      }
      WriteUnitsContents(dir, init);
      forall i | 0 <= i < |fs| - 1
        ensures WriteUnits(dir, fs)[fs[i].name] == fs[i].content
      {
        assert init[i] == fs[i];
      }
    }
  }

  /** Identifier stability: extracting a non-empty table with K data rows
      writes K files with pairwise different names; the file for the data row
      at position i holds that row's first-column cell and its name parses
      back to i + 2; every written name is the name of one of the rows
      2..K+1; and the reported count is the number of distinct files. */
  lemma {:induction false} ExtractionIdentifiers(t: Table)
    requires !IsEmpty(t)
    ensures DistinctNames(ExtractDescriptions(Some(t)).files)
    ensures forall i :: 0 <= i < |t.rows| ==>
              && ExtractDescriptions(Some(t)).files[i].content == t.rows[i].first
              && IsUnitName(ExtractDescriptions(Some(t)).files[i].name)
              && MergeKey(ExtractDescriptions(Some(t)).files[i].name) == Some(RowId(i))
    ensures forall x :: x in Names(ExtractDescriptions(Some(t)).files) ==>
              && MergeKey(x).Some? && 2 <= MergeKey(x).value <= |t.rows| + 1
              && x == ExtractDescriptions(Some(t)).files[MergeKey(x).value - 2].name
    ensures |Names(ExtractDescriptions(Some(t)).files)| == ExtractDescriptions(Some(t)).reported
  {
    var column := t.labels[0];
    var fs := UnitsOf(column, t.rows);
    assert ExtractDescriptions(Some(t)).files == fs;
    UnitsOfIdentifiers(column, t.rows);
    NamesAreRows(fs);
    UnitsOfDistinct(column, t.rows);
    DistinctNamesCount(fs);
  }

  /** The file for the data row at position i holds that row's cell and is
      named so that both readers accept it and the merger reads i + 2. */
  lemma {:induction false} UnitsOfIdentifiers(column: string, rows: seq<Row>)
    ensures forall i :: 0 <= i < |rows| ==>
              && UnitsOf(column, rows)[i].content == rows[i].first
              && IsUnitName(UnitsOf(column, rows)[i].name)
              && MergeKey(UnitsOf(column, rows)[i].name) == Some(RowId(i))
  {
    forall i | 0 <= i < |rows|
      ensures IsUnitName(UnitFileName(i, column)) && MergeKey(UnitFileName(i, column)) == Some(RowId(i))
    {
      UnitNameRoundTrip(i, column);
    }
  }

  /** When every file name parses back to its position plus two, every name
      in the folder names the file at that position. */
  lemma {:induction false} NamesAreRows(fs: seq<UnitFile>)
    requires forall i :: 0 <= i < |fs| ==> MergeKey(fs[i].name) == Some(RowId(i))
    ensures forall x :: x in Names(fs) ==>
              && MergeKey(x).Some? && 2 <= MergeKey(x).value <= |fs| + 1
              && x == fs[MergeKey(x).value - 2].name
    decreases |fs|
  {
    if fs != [] {
      var init := fs[..|fs| - 1];
      var last := fs[|fs| - 1];
      forall i | 0 <= i < |init| ensures MergeKey(init[i].name) == Some(RowId(i)) {
        assert init[i] == fs[i];
      }
      NamesAreRows(init);
      forall x | x in Names(fs)
        ensures MergeKey(x).Some? && 2 <= MergeKey(x).value <= |fs| + 1
        ensures x == fs[MergeKey(x).value - 2].name
      {
        if x != last.name {
          assert x in Names(init);
          assert init[MergeKey(x).value - 2] == fs[MergeKey(x).value - 2];
        }
      }
    }
  }

  /** The output folder after a successful extraction into `dir`: it gains
      exactly the K row files, the file named for data row i holds that row's
      first-column cell, and every other file is unchanged. */
  lemma {:induction false} ExtractionFolder(dir: map<string, string>, t: Table)
    requires !IsEmpty(t)
    ensures var fs := ExtractDescriptions(Some(t)).files;
            var out := WriteUnits(dir, fs);
            && out.Keys == dir.Keys + Names(fs)
            && (forall i :: 0 <= i < |t.rows| ==>
                  UnitFileName(i, t.labels[0]) in out && out[UnitFileName(i, t.labels[0])] == t.rows[i].first)
            && (forall x :: x in dir && x !in Names(fs) ==> out[x] == dir[x])
  {
    var fs := ExtractDescriptions(Some(t)).files;
    var column := t.labels[0];
    assert fs == UnitsOf(column, t.rows);
    UnitsOfDistinct(column, t.rows);
    WriteUnitsContents(dir, fs);
    forall i | 0 <= i < |t.rows|
      ensures UnitFileName(i, column) in WriteUnits(dir, fs)
      ensures WriteUnits(dir, fs)[UnitFileName(i, column)] == t.rows[i].first
    {
      assert fs[i].name == UnitFileName(i, column);
    }
  }
}

=== FILE: insert.dfy ===
/** insert.py, `insert_descriptions`: copy the workbook to `*_new.xlsx`, read
    every unit file of a folder back, and write each file's text into the
    first-column cell of the row its name identifies. */
module Insert {
  import opened Wrappers
  import opened PyText
  import opened PyIo
  import opened Tables
  import opened RowIds

  /** The input folder: its directory listing, in whatever order the system
      returns it, and the content of every file that can be read as UTF-8. */
  datatype Folder = Folder(listing: seq<string>, files: map<string, string>)

  /** How a run ends. A missing input folder stops it before anything else; a
      workbook that cannot be read, has no column, or cannot be copied stops
      it with "File error"; otherwise the copy at `output` receives `table`
      and `updated` is the count printed at the end. */
  datatype InsertOutcome =
    | MissingFolder
    | FileError
    | Merged(output: string, table: Table, updated: nat)

  // ---------------------------------------------------------------------------
  // Output path
  // ---------------------------------------------------------------------------

  const Workbook: string := ".xlsx"
  const NewWorkbook: string := "_new.xlsx"

  /** `original_excel_file.replace('.xlsx', '_new.xlsx')`. */
  function NewPath(path: string): (r: string)
    ensures r == path <==> !Contains(path, Workbook)
  {
    ReplaceAllFacts(path, Workbook, NewWorkbook);
    ReplaceAll(path, Workbook, NewWorkbook)
  }

  /** A name that mentions `.xlsx` only as its extension gets `_new` put in
      front of the extension. */
  lemma {:induction false} NewPathOfWorkbook(base: string)
    requires !Contains(base, Workbook)
    ensures NewPath(base + Workbook) == base + NewWorkbook
  {
    // `.xlsx` has no proper prefix that is also a suffix.
    assert Workbook[0] !in Workbook[1..];
    ReplaceAllTrailing(base, Workbook, NewWorkbook);
  }

  /** Every `.xlsx` in the name is replaced, not only the first or the last:
      after the first one, `NewPath` carries on over the rest of the name. */
  lemma {:induction false} NewPathEveryWorkbook(base: string, rest: string)
    requires !Contains(base, Workbook)
    ensures NewPath(base + Workbook + rest) == base + (NewWorkbook + NewPath(rest))
  {
    assert Workbook[0] !in Workbook[1..];
    ReplaceAllFirst(base, Workbook, rest, NewWorkbook);
  }

  /** A name with the extension twice gets `_new` in front of both. */
  lemma {:induction false} NewPathOfDoubleWorkbook(base: string)
    requires !Contains(base, Workbook)
    ensures NewPath(base + Workbook + Workbook) == base + NewWorkbook + NewWorkbook
  {
    NewPathEveryWorkbook(base, Workbook);
    assert !Contains([], Workbook);
    NewPathOfWorkbook([]);
    assert [] + Workbook == Workbook;
  }

  // ---------------------------------------------------------------------------
  // Reading the unit files back
  // ---------------------------------------------------------------------------

  /** What a listed file contributes to the `updates` dictionary: its row
      number and its content, read in text mode, when its name passes the
      `row_`/`.txt` filter, its stem's second `_` field reads as an integer,
      and it can be read; nothing otherwise (the loop reports the error and
      goes on). */
  function Contribution(name: string, files: map<string, string>): (c: Option<(nat, string)>)
    ensures c.Some? <==> IsUnitName(name) && name in files && MergeKey(name).Some?
    ensures c.Some? ==> c.value == (MergeKey(name).value, ReadText(files[name]))
  {
    if IsUnitName(name) && name in files then
      match MergeKey(name)
      case Some(k) => Some((k, ReadText(files[name])))
      case None => None
    else None
  }

  /** The dictionary built from a sequence of contributions, later entries
      overwriting earlier ones under the same key. */
  function Collect(cs: seq<Option<(nat, string)>>): map<nat, string> {
    if cs == [] then map[]
    else
      var before := Collect(cs[..|cs| - 1]);
      match cs[|cs| - 1]
      case Some((k, text)) => before[k := text]
      case None => before
  }

  /** Every contributed key is in the dictionary. */
  lemma {:induction false} CollectCovers(cs: seq<Option<(nat, string)>>)
    ensures forall i :: 0 <= i < |cs| && cs[i].Some? ==> cs[i].value.0 in Collect(cs)
    decreases |cs|
  {
    if cs != [] {
      var init := cs[..|cs| - 1];
      CollectCovers(init);
      forall i | 0 <= i < |init| ensures init[i] == cs[i] { }
    }
  }

  /** Every entry of the dictionary is one of the contributions. */
  lemma {:induction false} CollectFrom(cs: seq<Option<(nat, string)>>)
    ensures forall k :: k in Collect(cs) ==>
              exists i :: 0 <= i < |cs| && cs[i] == Some((k, Collect(cs)[k]))
    decreases |cs|
  {
    if cs != [] {
      var init := cs[..|cs| - 1];
      CollectFrom(init);
      forall k | k in Collect(cs)
        ensures exists i :: 0 <= i < |cs| && cs[i] == Some((k, Collect(cs)[k]))
      {
        if cs[|cs| - 1].Some? && cs[|cs| - 1].value.0 == k {
          assert cs[|cs| - 1] == Some((k, Collect(cs)[k]));
        } else {
          var i :| 0 <= i < |init| && init[i] == Some((k, Collect(init)[k]));
          assert cs[i] == init[i];
        }
      }
    }
  }

  /** The entry for a key is the last contribution under that key. */
  lemma {:induction false} CollectLastWins(cs: seq<Option<(nat, string)>>, i: nat)
    requires i < |cs| && cs[i].Some?
    requires forall j :: i < j < |cs| && cs[j].Some? ==> cs[j].value.0 != cs[i].value.0
    ensures cs[i].value.0 in Collect(cs) && Collect(cs)[cs[i].value.0] == cs[i].value.1
    decreases |cs|
  {
    CollectCovers(cs);
    if i < |cs| - 1 {
      var init := cs[..|cs| - 1];
      assert init[i] == cs[i];
      forall j | i < j < |init| && init[j].Some?
        ensures init[j].value.0 != init[i].value.0
      {
        assert init[j] == cs[j];
      }
      CollectLastWins(init, i);
    }
  }

  /** The contributions of the listed files, in listing order. */
  function Contributions(listing: seq<string>, files: map<string, string>): (cs: seq<Option<(nat, string)>>)
    ensures |cs| == |listing|
    ensures forall i :: 0 <= i < |listing| ==> cs[i] == Contribution(listing[i], files)
  {
    seq(|listing|, i requires 0 <= i < |listing| => Contribution(listing[i], files))
  }

  /** The `updates` dictionary after the loop over the listing. */
  function PendingEdits(listing: seq<string>, files: map<string, string>): map<nat, string> {
    Collect(Contributions(listing, files))
  }

  /** `updates` has an entry exactly for the row numbers some listed,
      readable unit file names, and each entry is the content of such a file. */
  lemma {:induction false} PendingEditsSpec(listing: seq<string>, files: map<string, string>)
    ensures forall i :: 0 <= i < |listing| && Contribution(listing[i], files).Some? ==>
              MergeKey(listing[i]).value in PendingEdits(listing, files)
    ensures forall k :: k in PendingEdits(listing, files) ==>
              exists i :: 0 <= i < |listing| && Contribution(listing[i], files) == Some((k, PendingEdits(listing, files)[k]))
  {
    var cs := Contributions(listing, files);
    CollectCovers(cs);
    CollectFrom(cs);
  }

  /** When several listed files name the same row, the one listed last wins. */
  lemma {:induction false} LastListedWins(listing: seq<string>, files: map<string, string>, i: nat)
    requires i < |listing| && Contribution(listing[i], files).Some?
    requires forall j :: i < j < |listing| && Contribution(listing[j], files).Some? ==>
               MergeKey(listing[j]) != MergeKey(listing[i])
    ensures MergeKey(listing[i]).value in PendingEdits(listing, files)
    ensures PendingEdits(listing, files)[MergeKey(listing[i]).value] == ReadText(files[listing[i]])
  {
    var cs := Contributions(listing, files);
    CollectCovers(cs);
    CollectLastWins(cs, i);
  }

  // ---------------------------------------------------------------------------
  // Merging into the copied table
  // ---------------------------------------------------------------------------

  /** The rows of the copy after the update loop: the data row at position
      `i` takes the text for row number `i + 2` in its first column when there
      is one, and every other cell keeps its value. */
  function MergedRows(rows: seq<Row>, edits: map<nat, string>): (merged: seq<Row>)
    ensures |merged| == |rows|
    ensures forall i :: 0 <= i < |rows| ==> merged[i].others == rows[i].others
    ensures forall i :: 0 <= i < |rows| && RowId(i) in edits ==> merged[i].first == edits[RowId(i)]
    ensures forall i :: 0 <= i < |rows| && RowId(i) !in edits ==> merged[i] == rows[i]
  {
    seq(|rows|, i requires 0 <= i < |rows| => MergeRow(rows[i], i, edits))
  }

  /** One iteration of the update loop on the data row at position `i`. */
  function MergeRow(row: Row, i: nat, edits: map<nat, string>): Row {
    if RowId(i) in edits then Row(edits[RowId(i)], row.others) else row
  }

  /** The positions among the first `n` data rows that have a text waiting. */
  function PendingRows(n: nat, edits: map<nat, string>): set<nat> {
    set i: nat | i < n && RowId(i) in edits
  }

  /** How many of the first `n` data rows have a text waiting: the count the
      loop prints. It is the number of those rows, so it never exceeds `n`,
      reaches `n` exactly when every row has one, and is zero exactly when
      none has. */
  function CountUpdated(n: nat, edits: map<nat, string>): (c: nat)
    ensures c == |PendingRows(n, edits)|
    ensures c <= n
    ensures c == n <==> forall i :: 0 <= i < n ==> RowId(i) in edits
    ensures c == 0 <==> forall i :: 0 <= i < n ==> RowId(i) !in edits
  {
    if n == 0 then
      assert PendingRows(0, edits) == {};
      0
    else
      PendingRowsStep(n, edits);
      CountUpdated(n - 1, edits) + (if RowId(n - 1) in edits then 1 else 0)
  }

  /** Row `n - 1` adds one pending row exactly when it has a text. */
  lemma {:induction false} PendingRowsStep(n: nat, edits: map<nat, string>)
    requires n > 0
    ensures |PendingRows(n, edits)| == |PendingRows(n - 1, edits)| + (if RowId(n - 1) in edits then 1 else 0)
  {
    var before := PendingRows(n - 1, edits);
    var last: set<nat> := if RowId(n - 1) in edits then {n - 1} else {};
    assert PendingRows(n, edits) == before + last;
    assert n - 1 !in before;
  }

  /** The update loop as written: visit the rows in index order, overwrite the
      first-column cell of every row with a pending text and count it. */
  method ApplyUpdates(rows: seq<Row>, edits: map<nat, string>) returns (merged: seq<Row>, updated: nat)
    ensures merged == MergedRows(rows, edits)
    ensures updated == CountUpdated(|rows|, edits)
  {
    merged := rows;
    updated := 0;
    var idx := 0;
    while idx < |rows|
      invariant 0 <= idx <= |rows|
      invariant |merged| == |rows|
      invariant forall i :: 0 <= i < idx ==> merged[i] == MergeRow(rows[i], i, edits)
      invariant forall i :: idx <= i < |rows| ==> merged[i] == rows[i]
      invariant updated == |PendingRows(idx, edits)|
    {
      var excelRow := idx + 2;
      PendingRowsStep(idx + 1, edits);
      if excelRow in edits {
        merged := merged[idx := Row(edits[excelRow], merged[idx].others)];
        updated := updated + 1;
      }
      idx := idx + 1;
    }
    MergedRowsPointwise(rows, edits, merged);
  }

  /** Rows that agree with the merge row by row are the merged rows. */
  lemma {:induction false} MergedRowsPointwise(rows: seq<Row>, edits: map<nat, string>, merged: seq<Row>)
    requires |merged| == |rows|
    requires forall i :: 0 <= i < |rows| ==> merged[i] == MergeRow(rows[i], i, edits)
    ensures merged == MergedRows(rows, edits)
  {
  }

  /** Merging the same texts a second time changes nothing. */
  lemma {:induction false} MergeIdempotent(rows: seq<Row>, edits: map<nat, string>)
    ensures MergedRows(MergedRows(rows, edits), edits) == MergedRows(rows, edits)
  {
  }

  /** Without pending texts the copy keeps every row. */
  lemma {:induction false} MergeNothing(rows: seq<Row>)
    ensures MergedRows(rows, map[]) == rows
    ensures CountUpdated(|rows|, map[]) == 0
  {
  }

  // ---------------------------------------------------------------------------
  // The whole run
  // ---------------------------------------------------------------------------

  /** `insert_descriptions(original_excel_file, input_folder)`, with the read
      workbook as `source` (`None` when it cannot be read) and the input
      folder as `folder` (`None` when it does not exist). The copy is made
      onto `NewPath(path)`; when that is `path` itself, `shutil.copyfile`
      refuses and the run stops with a file error. The copy then receives the
      merged rows under the same header: a data row's first-column cell takes
      the text read for its row number when there is one, every other cell is
      kept, and the count is the number of rows that took a text. */
  function InsertDescriptions(path: string, source: Option<Table>, folder: Option<Folder>): (r: InsertOutcome)
    ensures r.MissingFolder? <==> folder.None?
    ensures r.FileError? <==>
              folder.Some? && (source.None? || source.value.labels == [] || !Contains(path, Workbook))
    ensures r.Merged? ==>
              && r.output == NewPath(path) && r.output != path
              && r.table.labels == source.value.labels
              && |r.table.rows| == |source.value.rows|
              && r.updated <= |r.table.rows|
    ensures r.Merged? ==>
              var edits := PendingEdits(folder.value.listing, folder.value.files);
              && (forall i :: 0 <= i < |r.table.rows| ==> r.table.rows[i].others == source.value.rows[i].others)
              && (forall i :: 0 <= i < |r.table.rows| && RowId(i) in edits ==> r.table.rows[i].first == edits[RowId(i)])
              && (forall i :: 0 <= i < |r.table.rows| && RowId(i) !in edits ==> r.table.rows[i] == source.value.rows[i])
              && r.updated == |PendingRows(|r.table.rows|, edits)|
  {
    match folder
    case None => MissingFolder
    case Some(f) =>
      match source
      case None => FileError
      case Some(t) =>
        if t.labels == [] || NewPath(path) == path then FileError
        else
          var edits := PendingEdits(f.listing, f.files);
          Merged(NewPath(path), Table(t.labels, MergedRows(t.rows, edits)), CountUpdated(|t.rows|, edits))
  }

  /** Only unit files the merger can parse and read change anything: a folder
      holding none of them leaves the copy equal to the original and reports
      zero updates. */
  lemma {:induction false} NoUnitFilesNoChange(path: string, t: Table, f: Folder)
    requires t.labels != [] && Contains(path, Workbook)
    requires forall i :: 0 <= i < |f.listing| ==> Contribution(f.listing[i], f.files).None?
    ensures InsertDescriptions(path, Some(t), Some(f)) == Merged(NewPath(path), t, 0)
  {
    PendingEditsSpec(f.listing, f.files);
    assert PendingEdits(f.listing, f.files) == map[];
  }
}

=== FILE: paragraphs.dfy ===
/** Paragraph-scoped rewording: `extract_and_reinsert_paragraphs` in
    process_descriptions.py.

    The text is scanned left to right for the non-greedy pattern `<p>(.*?)</p>`
    (with `.` matching newlines). This module presents that scan as a layout:
    the text is `gaps[0] + "<p>" + interiors[0] + "</p>" + gaps[1] + ...`, with
    one more gap than interiors. Rewording replaces interiors and nothing else. */
module Paragraphs {
  import opened Wrappers
  import opened PyText

  const Open: string := "<p>"
  const Close: string := "</p>"

  /** The rewording capability: text in, rewritten text or `None` out. The
      concrete backends (remote chat API, local T5 model) are outside the
      model; both return `None` when they fail. */
  type Backend = string -> Option<string>

  // ---------------------------------------------------------------------------
  // The `<p>...</p>` scan
  // ---------------------------------------------------------------------------

  /** The first index at or after `start` where `pat` occurs. */
  function FindFrom(s: string, pat: string, start: nat): (r: Option<nat>)
    ensures r.Some? ==> start <= r.value && OccursAt(s, pat, r.value)
    ensures r.Some? ==> forall j :: start <= j < r.value ==> !OccursAt(s, pat, j)
    ensures r.None? ==> forall j :: start <= j ==> !OccursAt(s, pat, j)
    decreases |s| - start
  {
    if start + |pat| > |s| then None
    else if OccursAt(s, pat, start) then Some(start)
    else FindFrom(s, pat, start + 1)
  }

  /** The regular expression `<p>.*?</p>` (DOTALL) matches `s[i..j + 4]`:
      an opening tag at `i`, and `j` is the first closing tag after it. */
  predicate ShortestMatch(s: string, i: int, j: int) {
    && OccursAt(s, Open, i)
    && i + |Open| <= j
    && OccursAt(s, Close, j)
    && forall m :: i + |Open| <= m < j ==> !OccursAt(s, Close, m)
  }

  /** The next match of `<p>.*?</p>` at or after `pos`, as the regular
      expression engine finds it: the match is the shortest one starting at the
      leftmost opening tag; there is no match when no closing tag follows any
      opening tag. */
  function NextMatch(s: string, pos: nat): (r: Option<(nat, nat)>)
    ensures r.Some? ==> pos <= r.value.0 && ShortestMatch(s, r.value.0, r.value.1)
    ensures r.Some? ==> forall k :: pos <= k < r.value.0 ==> !OccursAt(s, Open, k)
    ensures r.None? ==> forall k, m :: pos <= k && k + |Open| <= m && OccursAt(s, Open, k) ==> !OccursAt(s, Close, m)
  {
    match FindFrom(s, Open, pos)
    case None => None
    case Some(i) =>
      match FindFrom(s, Close, i + |Open|)
      case None => None
      case Some(j) => Some((i, j))
  }

  /** Text cut into the pieces outside the matches (`gaps`) and the match
      interiors, in document order. */
  datatype Layout = Layout(gaps: seq<string>, interiors: seq<string>)

  /** Puts the pieces back together, wrapping each interior in `<p>`/`</p>`. */
  function Render(gaps: seq<string>, interiors: seq<string>): string
    requires |gaps| == |interiors| + 1
  {
    if interiors == [] then gaps[0]
    else gaps[0] + Open + interiors[0] + Close + Render(gaps[1..], interiors[1..])
  }

  /** `<p>.*?</p>` (DOTALL) has no match in `s`: no opening tag is followed by
      a closing tag. */
  ghost predicate NoMatch(s: string) {
    forall k, m :: 0 <= k && k + |Open| <= m && OccursAt(s, Open, k) ==> !OccursAt(s, Close, m)
  }

  /** The layout is the one the scan produces: each gap before a match holds
      no opening tag (the match starts at the leftmost one), each interior
      holds no closing tag (the match is the shortest), and the text after the
      last match has no match left. */
  ghost predicate ScanLayout(l: Layout)
    requires |l.gaps| == |l.interiors| + 1
  {
    && (forall k :: 0 <= k < |l.interiors| ==> !Contains(l.gaps[k], Open))
    && (forall k :: 0 <= k < |l.interiors| ==> !Contains(l.interiors[k], Close))
    && NoMatch(l.gaps[|l.interiors|])
  }

  /** The matches from `pos` on. Rendering the layout gives back exactly the
      text that was scanned, and the pieces are the scan's. */
  function ParseFrom(s: string, pos: nat): (l: Layout)
    requires pos <= |s|
    ensures |l.gaps| == |l.interiors| + 1
    ensures Render(l.gaps, l.interiors) == s[pos..]
    ensures ScanLayout(l)
    decreases |s| - pos
  {
    match NextMatch(s, pos)
    case None =>
      TailNoMatch(s, pos);
      Layout([s[pos..]], [])
    case Some((i, j)) =>
      var rest := ParseFrom(s, j + |Close|);
      var l := Layout([s[pos..i]] + rest.gaps, [s[i + |Open|..j]] + rest.interiors);
      SplitAtMatch(s, pos, i, j);
      GapFree(s, pos, i);
      InteriorFree(s, i, j);
      ScanLayoutCons(s[pos..i], s[i + |Open|..j], rest);
      assert l.gaps[1..] == rest.gaps && l.interiors[1..] == rest.interiors;
      l
  }

  /** A gap without an opening tag and an interior without a closing tag in
      front of a scanned layout make a scanned layout. */
  lemma {:induction false} ScanLayoutCons(gap: string, interior: string, rest: Layout)
    requires |rest.gaps| == |rest.interiors| + 1 && ScanLayout(rest)
    requires !Contains(gap, Open) && !Contains(interior, Close)
    ensures ScanLayout(Layout([gap] + rest.gaps, [interior] + rest.interiors))
  {
    var l := Layout([gap] + rest.gaps, [interior] + rest.interiors);
    assert forall k :: 1 <= k < |l.interiors| ==> l.gaps[k] == rest.gaps[k - 1] && l.interiors[k] == rest.interiors[k - 1];
    assert l.gaps[|l.interiors|] == rest.gaps[|rest.interiors|];
  }

  /** The text from `pos` on is the gap before a match, the match, and the
      text after it. */
  lemma {:induction false} SplitAtMatch(s: string, pos: nat, i: nat, j: nat)
    requires pos <= i && OccursAt(s, Open, i) && i + |Open| <= j && OccursAt(s, Close, j)
    ensures s[pos..] == s[pos..i] + Open + s[i + |Open|..j] + Close + s[j + |Close|..]
  {
    assert s[i..i + |Open|] == Open;
    assert s[j..j + |Close|] == Close;
    assert s[pos..] == s[pos..i] + s[i..i + |Open|] + s[i + |Open|..j] + s[j..j + |Close|] + s[j + |Close|..];
  }

  /** An occurrence in a slice is an occurrence in the whole text. */
  lemma {:induction false} SliceOccurs(s: string, a: nat, b: nat, pat: string, k: int)
    requires a <= b <= |s| && OccursAt(s[a..b], pat, k)
    ensures OccursAt(s, pat, a + k)
  {
    var t := s[a..b];
    var u, v := t[k..k + |pat|], s[a + k..a + k + |pat|];
    assert forall x :: 0 <= x < |pat| ==> u[x] == v[x];
    assert u == v;
  }

  /** Before the leftmost opening tag there is none. */
  lemma {:induction false} GapFree(s: string, pos: nat, i: nat)
    requires pos <= i <= |s|
    requires forall k :: pos <= k < i ==> !OccursAt(s, Open, k)
    ensures !Contains(s[pos..i], Open)
  {
    var gap := s[pos..i];
    forall k | 0 <= k <= |gap| && OccursAt(gap, Open, k)
      ensures false
    {
      SliceOccurs(s, pos, i, Open, k);
    }
  }

  /** The interior of a shortest match holds no closing tag. */
  lemma {:induction false} InteriorFree(s: string, i: nat, j: nat)
    requires ShortestMatch(s, i, j)
    ensures !Contains(s[i + |Open|..j], Close)
  {
    var interior := s[i + |Open|..j];
    forall k | 0 <= k <= |interior| && OccursAt(interior, Close, k)
      ensures false
    {
      SliceOccurs(s, i + |Open|, j, Close, k);
    }
  }

  /** Where the scan finds nothing more, the rest of the text has no match. */
  lemma {:induction false} TailNoMatch(s: string, pos: nat)
    requires pos <= |s| && NextMatch(s, pos).None?
    ensures NoMatch(s[pos..])
  {
    var tail := s[pos..|s|];
    assert tail == s[pos..];
    forall k, m | 0 <= k && k + |Open| <= m && OccursAt(tail, Open, k) && OccursAt(tail, Close, m)
      ensures false
    {
      SliceOccurs(s, pos, |s|, Open, k);
      SliceOccurs(s, pos, |s|, Close, m);
    }
  }

  /** `re.findall`/`re.sub` over the whole text: the layout renders back into
      the text, and its interiors are the matches of `<p>(.*?)</p>`. */
  function Parse(s: string): (l: Layout)
    ensures |l.gaps| == |l.interiors| + 1
    ensures Render(l.gaps, l.interiors) == s
    ensures ScanLayout(l)
  {
    assert s[0..] == s;
    ParseFrom(s, 0)
  }

  // ---------------------------------------------------------------------------
  // Tag removal: `re.sub(r'<.*?>', '', paragraph)`, WITHOUT DOTALL, so a tag
  // never spans a newline
  // ---------------------------------------------------------------------------

  /** Where the tag opened just before `t` closes: the index of the first `>`
      in `t`, provided no newline comes before it. There is none exactly when
      every `>` of `t` has a newline somewhere before it. */
  function TagClose(t: string): (r: Option<nat>)
    ensures r.Some? ==> r.value < |t| && t[r.value] == '>'
    ensures r.Some? ==> forall q :: 0 <= q < r.value ==> t[q] != '>' && t[q] != '\n'
    ensures r.None? ==> forall q :: 0 <= q < |t| && t[q] == '>' ==> '\n' in t[..q]
  {
    if t == [] then None
    else if t[0] == '>' then Some(0)
    else if t[0] == '\n' then
      assert forall q :: 0 < q < |t| ==> t[0] in t[..q];
      None
    else match TagClose(t[1..])
      case Some(m) => Some(m + 1)
      case None =>
        assert forall q :: 0 < q < |t| ==> t[1..][q - 1] == t[q] && t[1..][..q - 1] == t[1..q];
        None
  }

  /** Deletes every `<...>` tag, scanning left to right: at a `<` whose tag
      closes on the same line the whole tag goes and the scan resumes after
      its `>`; any other character is kept. */
  function RemoveTags(s: string): (r: string)
    ensures |r| <= |s|
    decreases |s|
  {
    if s == [] then []
    else if s[0] == '<' && TagClose(s[1..]).Some? then RemoveTags(s[TagClose(s[1..]).value + 2..])
    else [s[0]] + RemoveTags(s[1..])
  }

  /** No `<` in the text is followed by a `>` on the same line, so the tag
      pattern finds nothing to remove. */
  predicate TagFree(r: string) {
    forall a :: 0 <= a < |r| && r[a] == '<' ==> TagClose(r[a + 1..]).None?
  }

  /** If no tag can close in `s`, none can close in what tag removal leaves of
      `s`: removal deletes no newline and introduces no `>`. */
  lemma {:induction false} RemoveTagsKeepsLineOpen(s: string)
    requires TagClose(s).None?
    ensures TagClose(RemoveTags(s)).None?
    decreases |s|
  {
    if s != [] {
      assert s[0] != '>';
      if s[0] != '\n' {
        assert TagClose(s[1..]).None?;
        RemoveTagsKeepsLineOpen(s[1..]);
        var r := RemoveTags(s);
        assert r[1..] == RemoveTags(s[1..]);
      }
    }
  }

  /** Tag removal leaves no tag behind. */
  lemma {:induction false} RemoveTagsIsTagFree(s: string)
    ensures TagFree(RemoveTags(s))
    decreases |s|
  {
    if s == [] {
    } else if s[0] == '<' && TagClose(s[1..]).Some? {
      RemoveTagsIsTagFree(s[TagClose(s[1..]).value + 2..]);
    } else {
      var rest := RemoveTags(s[1..]);
      RemoveTagsIsTagFree(s[1..]);
      var r := RemoveTags(s);
      assert r == [s[0]] + rest;
      if s[0] == '<' {
        RemoveTagsKeepsLineOpen(s[1..]);
        assert r[1..] == rest;
      }
      forall a | 0 < a < |r| && r[a] == '<'
        ensures TagClose(r[a + 1..]).None?
      {
        assert r[a] == rest[a - 1];
        assert r[a + 1..] == rest[a..];
      }
    }
  }

  /** Text without `<` has no tag to remove. */
  lemma {:induction false} RemoveTagsWithoutAngle(s: string)
    requires '<' !in s
    ensures RemoveTags(s) == s
    decreases |s|
  {
    if s != [] {
      RemoveTagsWithoutAngle(s[1..]);
      assert [s[0]] + s[1..] == s;
    }
  }

  /** A tag opened just before `t + ">" + b` closes at that `>` when `t` holds
      neither a `>` nor a newline: `.*?` is lazy and stops at the first `>`. */
  lemma {:induction false} TagCloseAt(t: string, b: string)
    requires '>' !in t && '\n' !in t
    ensures TagClose(t + ['>'] + b) == Some(|t|)
    decreases |t|
  {
    if t != [] {
      assert (t + ['>'] + b)[1..] == t[1..] + ['>'] + b;
      TagCloseAt(t[1..], b);
    }
  }

  /** Text before the first `<` passes through unchanged, whatever follows. */
  lemma {:induction false} RemoveTagsKeepsPlainPrefix(a: string, b: string)
    requires '<' !in a
    ensures RemoveTags(a + b) == a + RemoveTags(b)
    decreases |a|
  {
    if a != [] {
      var s := a + b;
      assert s[0] == a[0] && s[1..] == a[1..] + b;
      assert RemoveTags(s) == [a[0]] + RemoveTags(a[1..] + b);
      RemoveTagsKeepsPlainPrefix(a[1..], b);
      assert [a[0]] + (a[1..] + RemoveTags(b)) == a + RemoveTags(b);
    } else {
      assert a + b == b && a + RemoveTags(b) == RemoveTags(b);
    }
  }

  /** A complete tag at the front is deleted, and nothing after it. */
  lemma {:induction false} RemoveTagsAtTag(t: string, b: string)
    requires '>' !in t && '\n' !in t
    ensures RemoveTags(['<'] + t + ['>'] + b) == RemoveTags(b)
  {
    var s := ['<'] + t + ['>'] + b;
    assert s[0] == '<';
    assert s[1..] == t + ['>'] + b;
    TagCloseAt(t, b);
    assert s[|t| + 2..] == b;
  }

  /** A complete tag on one line is deleted, and only the tag: the text in
      front of it and the text after it are both kept. */
  lemma {:induction false} RemoveTagsDropsTag(a: string, t: string, b: string)
    requires '<' !in a
    requires '>' !in t && '\n' !in t
    ensures RemoveTags(a + ['<'] + t + ['>'] + b) == a + RemoveTags(b)
  {
    var s := ['<'] + t + ['>'] + b;
    assert a + ['<'] + t + ['>'] + b == a + s;
    RemoveTagsKeepsPlainPrefix(a, s);
    RemoveTagsAtTag(t, b);
  }

  /** A `<` whose tag never closes on its line stays in the text. */
  lemma {:induction false} RemoveTagsUnclosed(t: string)
    requires TagClose(t).None?
    ensures RemoveTags(['<'] + t) == ['<'] + RemoveTags(t)
  {
    assert (['<'] + t)[1..] == t;
  }

  /** A tag cannot close in a prefix of text where it cannot close. */
  lemma {:induction false} TagClosePrefix(t: string, k: nat)
    requires k <= |t|
    requires TagClose(t).None?
    ensures TagClose(t[..k]).None?
    decreases k
  {
    if k > 0 && t[0] != '\n' {
      assert t[..k][1..] == t[1..][..k - 1];
      TagClosePrefix(t[1..], k - 1);
    }
  }

  /** Any contiguous piece of tag-free text is tag-free. */
  lemma {:induction false} TagFreePiece(t: string, a: nat, b: nat)
    requires a <= b <= |t|
    requires TagFree(t)
    ensures TagFree(t[a..b])
  {
    var r := t[a..b];
    forall c | 0 <= c < |r| && r[c] == '<'
      ensures TagClose(r[c + 1..]).None?
    {
      assert r[c] == t[a + c];
      assert TagClose(t[a + c + 1..]).None?;
      assert r[c + 1..] == t[a + c + 1..][..b - a - c - 1];
      TagClosePrefix(t[a + c + 1..], b - a - c - 1);
    }
  }

  /** What the backend receives for one paragraph: the interior with tags
      removed and surrounding whitespace stripped. It has no whitespace at
      either end; `PlainIsTagFree` shows it carries no tag either. */
  function Plain(interior: string): (r: string)
    ensures IsStripped(r)
  {
    Strip(RemoveTags(interior))
  }

  /** The plain text of a paragraph carries no tag. */
  lemma {:induction false} PlainIsTagFree(interior: string)
    ensures TagFree(Plain(interior))
  {
    RemoveTagsIsTagFree(interior);
    StripKeepsTagFree(RemoveTags(interior));
  }

  lemma {:induction false} StripKeepsTagFree(t: string)
    requires TagFree(t)
    ensures TagFree(Strip(t))
  {
    StripTrims(t);
    TrimmedTagFree(t, StripEnd(StripStart(t)), |t| - |StripStart(t)|);
  }

  lemma {:induction false} TrimmedTagFree(t: string, r: string, a: int)
    requires TagFree(t) && TrimmedAt(t, r, a)
    ensures TagFree(r)
  {
    TagFreePiece(t, a, a + |r|);
  }

  /** Text that already is plain (no `<`, nothing to strip) is sent as is. */
  lemma {:induction false} PlainOfPlainText(x: string)
    requires '<' !in x && IsStripped(x)
    ensures Plain(x) == x
  {
    RemoveTagsWithoutAngle(x);
    StripOfStripped(x);
  }

  // ---------------------------------------------------------------------------
  // Rewording and reinsertion
  // ---------------------------------------------------------------------------

  /** Python truthiness of a backend result: a non-empty string is used, while
      `None` and `""` fall back to the original. */
  function Choose(result: Option<string>, original: string): string {
    if result.Some? && result.value != [] then result.value else original
  }

  /** One backend call and its fallback: the backend's answer for the
      interior's plain text when it is truthy, else the raw interior. */
  function RewordOne(interior: string, reword: Backend): string {
    Choose(reword(Plain(interior)), interior)
  }

  /** The rewording loop: one backend call per interior, in order. The k-th
      result is the backend's answer for the k-th interior's plain text, or
      that interior itself (raw, tags included) when the answer is falsy. */
  function RewordAll(interiors: seq<string>, reword: Backend): (results: seq<string>)
    ensures |results| == |interiors|
  {
    seq(|interiors|, k requires 0 <= k < |interiors| => RewordOne(interiors[k], reword))
  }

  /** The arguments of the backend calls, in call order. */
  function BackendCalls(text: string): (calls: seq<string>)
    ensures |calls| == |Parse(text).interiors|
  {
    var interiors := Parse(text).interiors;
    seq(|interiors|, k requires 0 <= k < |interiors| => Plain(interiors[k]))
  }

  /** Outcome of the substitution pass: the text, and how many matches took
      the `match.group(0)` branch because the result queue was empty. */
  datatype Substitution = Substitution(text: string, fallbacks: nat)

  /** `re.sub` with `replace_paragraph`: each match, in order, is replaced by
      `<p>` + the next queued result + `</p>`, popping the queue; a match met
      with an empty queue is kept verbatim. The fallback is taken exactly once
      per match beyond the queue's length, and when the queue is as long as
      the match list the text is the layout with the queue as interiors. */
  function Substitute(gaps: seq<string>, interiors: seq<string>, queue: seq<string>): (r: Substitution)
    requires |gaps| == |interiors| + 1
    ensures r.fallbacks == if |queue| >= |interiors| then 0 else |interiors| - |queue|
    ensures |queue| == |interiors| ==> r.text == Render(gaps, queue)
  {
    if interiors == [] then
      Substitution(gaps[0], 0)
    else if queue != [] then
      var rest := Substitute(gaps[1..], interiors[1..], queue[1..]);
      Substitution(gaps[0] + Open + queue[0] + Close + rest.text, rest.fallbacks)
    else
      var rest := Substitute(gaps[1..], interiors[1..], []);
      Substitution(gaps[0] + Open + interiors[0] + Close + rest.text, rest.fallbacks + 1)
  }

  /** `extract_and_reinsert_paragraphs(text, reword)`. Text outside the
      matches and every `<p>`/`</p>` delimiter are kept; the k-th interior is
      replaced by the k-th result. The result is empty exactly when the text is. */
  function ExtractAndReinsert(text: string, reword: Backend): (r: string)
    ensures r == Render(Parse(text).gaps, RewordAll(Parse(text).interiors, reword))
    ensures r == [] <==> text == []
  {
    var l := Parse(text);
    if l.interiors == [] then
      text
    else
      var r := Substitute(l.gaps, l.interiors, RewordAll(l.interiors, reword)).text;
      assert |r| >= |Open| by {
        var q := RewordAll(l.interiors, reword);
        assert r == l.gaps[0] + Open + q[0] + Close + Render(l.gaps[1..], q[1..]);
      }
      r
  }

  // ---------------------------------------------------------------------------
  // Properties
  // ---------------------------------------------------------------------------

  /** A text in which no `<p>` is followed by a `</p>` comes back unchanged,
      whatever the backend does. */
  lemma {:induction false} NoParagraphsUnchanged(text: string, reword: Backend)
    requires forall k, m :: 0 <= k && k + |Open| <= m && OccursAt(text, Open, k) ==> !OccursAt(text, Close, m)
    ensures ExtractAndReinsert(text, reword) == text
  {
    var i := FindFrom(text, Open, 0);
    if i.Some? {
      assert FindFrom(text, Close, i.value + |Open|).None?;
    }
    assert NextMatch(text, 0).None?;
  }

  /** A backend that always fails (answers `None` or `""`) leaves the text
      byte-for-byte unchanged. */
  lemma {:induction false} AllFailUnchanged(text: string, reword: Backend)
    requires forall x :: reword(x) == None || reword(x) == Some([])
    ensures ExtractAndReinsert(text, reword) == text
  {
    var l := Parse(text);
    assert RewordAll(l.interiors, reword) == l.interiors;
  }

  /** The number of results equals the number of matches, so the
      `match.group(0)` fallback of the substitution never fires. */
  lemma {:induction false} FallbackNeverFires(text: string, reword: Backend)
    ensures Substitute(Parse(text).gaps, Parse(text).interiors, RewordAll(Parse(text).interiors, reword)).fallbacks == 0
  {
  }

  /** The output depends on the backend only through its answers to the
      calls made: once per match, in document order, on that match's plain
      interior. Two backends that agree on those arguments give the same text. */
  lemma {:induction false} OnlyCalledArgumentsMatter(text: string, f: Backend, g: Backend)
    requires forall k :: 0 <= k < |BackendCalls(text)| ==> f(BackendCalls(text)[k]) == g(BackendCalls(text)[k])
    ensures ExtractAndReinsert(text, f) == ExtractAndReinsert(text, g)
  {
    var l := Parse(text);
    var calls := BackendCalls(text);
    assert forall k :: 0 <= k < |l.interiors| ==> calls[k] == Plain(l.interiors[k]);
    assert RewordAll(l.interiors, f) == RewordAll(l.interiors, g);
  }
}

=== FILE: pipeline.dfy ===
/** The three scripts run one after the other: extract.py writes the unit
    files, process_descriptions.py may reword them into a second folder, and
    insert.py writes a folder back into a copy of the workbook. */
module Pipeline {
  import opened Wrappers
  import opened PyText
  import opened PyIo
  import opened Tables
  import opened RowIds
  import opened Paragraphs
  import opened Batch
  import opened Extract
  import opened Insert

  /** A directory listing of `folder`: every file in it, and nothing else,
      in any order. */
  ghost predicate ListsFolder(listing: seq<string>, folder: map<string, string>) {
    forall x :: x in listing <==> x in folder
  }

  /** The folder a write of `fs` produces, read back by the merger: when the
      file at position i has a name that reads back as i + 2, every row number
      2..|fs|+1 gets a text, and it is the content of that file as text mode
      reads it (line endings turned into `\n`). */
  lemma {:induction false} ReadBackWritten(fs: seq<UnitFile>, listing: seq<string>)
    requires DistinctNames(fs)
    requires forall i :: 0 <= i < |fs| ==> IsUnitName(fs[i].name) && MergeKey(fs[i].name) == Some(RowId(i))
    requires ListsFolder(listing, WriteUnits(map[], fs))
    ensures forall i :: 0 <= i < |fs| ==> RowId(i) in PendingEdits(listing, WriteUnits(map[], fs))
    ensures forall i :: 0 <= i < |fs| ==> PendingEdits(listing, WriteUnits(map[], fs))[RowId(i)] == ReadText(fs[i].content)
  {
    WrittenRowsEdited(fs, listing);
    WrittenEditsAreContents(fs, listing);
  }

  /** Every written file comes back under its row number. */
  lemma {:induction false} WrittenRowsEdited(fs: seq<UnitFile>, listing: seq<string>)
    requires DistinctNames(fs)
    requires forall i :: 0 <= i < |fs| ==> IsUnitName(fs[i].name) && MergeKey(fs[i].name) == Some(RowId(i))
    requires ListsFolder(listing, WriteUnits(map[], fs))
    ensures forall i :: 0 <= i < |fs| ==> RowId(i) in PendingEdits(listing, WriteUnits(map[], fs))
  {
    var out := WriteUnits(map[], fs);
    var edits := PendingEdits(listing, out);
    WriteUnitsContents(map[], fs);
    PendingEditsSpec(listing, out);
    forall i | 0 <= i < |fs|
      ensures RowId(i) in edits
    {
      var x := fs[i].name;
      assert x in listing;
      var j :| 0 <= j < |listing| && listing[j] == x;
      assert Contribution(listing[j], out).Some?;
    }
  }

  /** Every text read back under a row number is the content of the file
      written for that row, as text mode reads it. */
  lemma {:induction false} WrittenEditsAreContents(fs: seq<UnitFile>, listing: seq<string>)
    requires DistinctNames(fs)
    requires forall i :: 0 <= i < |fs| ==> IsUnitName(fs[i].name) && MergeKey(fs[i].name) == Some(RowId(i))
    requires ListsFolder(listing, WriteUnits(map[], fs))
    ensures forall i :: 0 <= i < |fs| && RowId(i) in PendingEdits(listing, WriteUnits(map[], fs)) ==>
              PendingEdits(listing, WriteUnits(map[], fs))[RowId(i)] == ReadText(fs[i].content)
  {
    var out := WriteUnits(map[], fs);
    var edits := PendingEdits(listing, out);
    NamesAreRows(fs);
    WriteUnitsContents(map[], fs);
    PendingEditsSpec(listing, out);
    forall i | 0 <= i < |fs| && RowId(i) in edits
      ensures edits[RowId(i)] == ReadText(fs[i].content)
    {
      var j :| 0 <= j < |listing| && Contribution(listing[j], out) == Some((RowId(i), edits[RowId(i)]));
      assert listing[j] in out;
      FileOfRow(fs, listing[j], i);
    }
  }

  /** A written name that reads back as row number i + 2 is the name of the
      file written for data row i. */
  lemma {:induction false} FileOfRow(fs: seq<UnitFile>, x: string, i: nat)
    requires forall y :: y in Names(fs) ==>
               && MergeKey(y).Some? && 2 <= MergeKey(y).value <= |fs| + 1
               && y == fs[MergeKey(y).value - 2].name
    requires x in Names(fs) && MergeKey(x) == Some(RowId(i))
    ensures i < |fs| && x == fs[i].name
  {
    var k := MergeKey(x).value;
    assert k == i + 2;
    assert 2 <= k <= |fs| + 1 && x == fs[k - 2].name;
  }

  /** Round trip: inserting the freshly extracted folder, unchanged, writes a
      copy holding the original table with every first-column cell as text
      mode reads it back (line endings turned into `\n`), and reports every
      data row as updated. A table whose first-column cells hold no `\r`
      comes back equal to the original. */
  lemma {:induction false} ExtractThenInsertUnchanged(path: string, t: Table, listing: seq<string>)
    requires !IsEmpty(t) && Contains(path, Workbook)
    requires ListsFolder(listing, WriteUnits(map[], ExtractDescriptions(Some(t)).files))
    ensures var r := InsertDescriptions(path, Some(t), Some(Folder(listing, WriteUnits(map[], ExtractDescriptions(Some(t)).files))));
            && r.Merged? && r.output == NewPath(path) && r.updated == |t.rows|
            && r.table.labels == t.labels && |r.table.rows| == |t.rows|
            && forall i :: 0 <= i < |t.rows| ==> r.table.rows[i] == Row(ReadText(t.rows[i].first), t.rows[i].others)
    ensures (forall i :: 0 <= i < |t.rows| ==> '\r' !in t.rows[i].first) ==>
              InsertDescriptions(path, Some(t), Some(Folder(listing, WriteUnits(map[], ExtractDescriptions(Some(t)).files))))
              == Merged(NewPath(path), t, |t.rows|)
  {
    var fs := ExtractDescriptions(Some(t)).files;
    var folder := Folder(listing, WriteUnits(map[], fs));
    InsertIntoCopy(path, t, folder);
    ExtractedEdits(t, listing);
    MergeReadBack(t.rows, PendingEdits(listing, WriteUnits(map[], fs)));
  }

  /** Reading a freshly extracted folder back gives every data row its own
      cell, as text mode reads it. */
  lemma {:induction false} ExtractedEdits(t: Table, listing: seq<string>)
    requires !IsEmpty(t)
    requires ListsFolder(listing, WriteUnits(map[], ExtractDescriptions(Some(t)).files))
    ensures forall i :: 0 <= i < |t.rows| ==>
              && RowId(i) in PendingEdits(listing, WriteUnits(map[], ExtractDescriptions(Some(t)).files))
              && PendingEdits(listing, WriteUnits(map[], ExtractDescriptions(Some(t)).files))[RowId(i)] == ReadText(t.rows[i].first)
  {
    var fs := ExtractDescriptions(Some(t)).files;
    ExtractionIdentifiers(t);
    ReadBackWritten(fs, listing);
    assert |fs| == |t.rows|;
  }

  /** A run that gets past the file checks writes the merged rows and their
      count to the copy. */
  lemma {:induction false} InsertIntoCopy(path: string, t: Table, f: Folder)
    requires t.labels != [] && Contains(path, Workbook)
    ensures InsertDescriptions(path, Some(t), Some(f))
            == Merged(NewPath(path), Table(t.labels, MergedRows(t.rows, PendingEdits(f.listing, f.files))),
                      CountUpdated(|t.rows|, PendingEdits(f.listing, f.files)))
  {
    assert NewPath(path) != path;
  }

  /** Texts waiting for every row, each the row's cell as text mode reads it,
      merge into the rows with those cells and count every row; cells
      without `\r` are left as they are. */
  lemma {:induction false} MergeReadBack(rows: seq<Row>, edits: map<nat, string>)
    requires forall i :: 0 <= i < |rows| ==> RowId(i) in edits && edits[RowId(i)] == ReadText(rows[i].first)
    ensures forall i :: 0 <= i < |rows| ==> MergedRows(rows, edits)[i] == Row(ReadText(rows[i].first), rows[i].others)
    ensures CountUpdated(|rows|, edits) == |rows|
    ensures (forall i :: 0 <= i < |rows| ==> '\r' !in rows[i].first) ==> MergedRows(rows, edits) == rows
  {
    var merged := MergedRows(rows, edits);
    if forall i :: 0 <= i < |rows| ==> '\r' !in rows[i].first {
      assert forall i :: 0 <= i < |rows| ==> merged[i] == rows[i];
    }
  }

  /** The folder the batch driver writes, in paragraph mode into an empty
      folder, from the folder a write of `fs` produced, read back by the
      merger: the row named by file i gets a text exactly when that file is
      not empty, and the text is the file's content, read in text mode, with
      its paragraphs reworded, read back in text mode again. */
  lemma {:induction false} ReadBackProcessed(fs: seq<UnitFile>, listing: seq<string>, outListing: seq<string>, reword: Backend)
    requires DistinctNames(fs)
    requires forall i :: 0 <= i < |fs| ==> IsUnitName(fs[i].name) && MergeKey(fs[i].name) == Some(RowId(i))
    requires ListsFolder(listing, WriteUnits(map[], fs))
    requires ListsFolder(outListing, WriteOutputs(map[], ProcessAll(listing, WriteUnits(map[], fs), ParagraphsOnly, reword)))
    ensures forall i :: 0 <= i < |fs| ==> (RowId(i) in PendingEdits(outListing, WriteOutputs(map[], ProcessAll(listing, WriteUnits(map[], fs), ParagraphsOnly, reword))) <==> fs[i].content != [])
    ensures forall i :: 0 <= i < |fs| && fs[i].content != [] ==>
              PendingEdits(outListing, WriteOutputs(map[], ProcessAll(listing, WriteUnits(map[], fs), ParagraphsOnly, reword)))[RowId(i)] == ReadText(ExtractAndReinsert(ReadText(fs[i].content), reword))
  {
    ProcessedFilledRowsEdited(fs, listing, outListing, reword);
    ProcessedEditsReworded(fs, listing, outListing, reword);
  }

  /** Every non-empty unit file comes back reworded under its row number. */
  lemma {:induction false} ProcessedFilledRowsEdited(fs: seq<UnitFile>, listing: seq<string>, outListing: seq<string>, reword: Backend)
    requires DistinctNames(fs)
    requires forall i :: 0 <= i < |fs| ==> IsUnitName(fs[i].name) && MergeKey(fs[i].name) == Some(RowId(i))
    requires ListsFolder(listing, WriteUnits(map[], fs))
    requires ListsFolder(outListing, WriteOutputs(map[], ProcessAll(listing, WriteUnits(map[], fs), ParagraphsOnly, reword)))
    ensures forall i :: 0 <= i < |fs| && fs[i].content != [] ==> RowId(i) in PendingEdits(outListing, WriteOutputs(map[], ProcessAll(listing, WriteUnits(map[], fs), ParagraphsOnly, reword)))
  {
    var extracted := WriteUnits(map[], fs);
    var reworded := WriteOutputs(map[], ProcessAll(listing, extracted, ParagraphsOnly, reword));
    var edits := PendingEdits(outListing, reworded);
    WriteUnitsContents(map[], fs);
    BatchOutputFolder(listing, extracted, ParagraphsOnly, reword);
    PendingEditsSpec(outListing, reworded);
    forall i | 0 <= i < |fs| && fs[i].content != []
      ensures RowId(i) in edits
    {
      var x := fs[i].name;
      assert x in extracted && extracted[x] == fs[i].content;
      assert ProcessUnit(x, extracted, ParagraphsOnly, reword).Saved?;
      assert x in reworded;
      var j :| 0 <= j < |outListing| && outListing[j] == x;
      assert Contribution(outListing[j], reworded).Some?;
    }
  }

  /** The batch driver run in paragraph mode over a freshly extracted
      folder: the output folder holds a file exactly for the non-empty unit
      files, under the same name, holding the text read with its paragraphs
      reworded, and nothing else. */
  lemma {:induction false} ProcessedFolder(fs: seq<UnitFile>, listing: seq<string>, reword: Backend)
    requires DistinctNames(fs)
    requires forall i :: 0 <= i < |fs| ==> IsUnitName(fs[i].name)
    requires ListsFolder(listing, WriteUnits(map[], fs))
    ensures forall x :: x in WriteOutputs(map[], ProcessAll(listing, WriteUnits(map[], fs), ParagraphsOnly, reword)) ==>
              x in Names(fs)
    ensures forall i :: 0 <= i < |fs| ==>
              (fs[i].name in WriteOutputs(map[], ProcessAll(listing, WriteUnits(map[], fs), ParagraphsOnly, reword))
               <==> fs[i].content != [])
    ensures forall i :: 0 <= i < |fs| && fs[i].content != [] ==>
              WriteOutputs(map[], ProcessAll(listing, WriteUnits(map[], fs), ParagraphsOnly, reword))[fs[i].name]
              == ExtractAndReinsert(ReadText(fs[i].content), reword)
  {
    var extracted := WriteUnits(map[], fs);
    WriteUnitsContents(map[], fs);
    BatchOutputFolder(listing, extracted, ParagraphsOnly, reword);
    forall i | 0 <= i < |fs|
      ensures fs[i].name in extracted && extracted[fs[i].name] == fs[i].content
      ensures fs[i].name in listing
    {
    }
  }

  /** Every text read back names a non-empty unit file and is that file's
      content with its paragraphs reworded, each read in text mode. */
  lemma {:induction false} ProcessedEditsReworded(fs: seq<UnitFile>, listing: seq<string>, outListing: seq<string>, reword: Backend)
    requires DistinctNames(fs)
    requires forall i :: 0 <= i < |fs| ==> IsUnitName(fs[i].name) && MergeKey(fs[i].name) == Some(RowId(i))
    requires ListsFolder(listing, WriteUnits(map[], fs))
    ensures forall i :: 0 <= i < |fs| && RowId(i) in PendingEdits(outListing, WriteOutputs(map[], ProcessAll(listing, WriteUnits(map[], fs), ParagraphsOnly, reword))) ==>
              fs[i].content != [] && PendingEdits(outListing, WriteOutputs(map[], ProcessAll(listing, WriteUnits(map[], fs), ParagraphsOnly, reword)))[RowId(i)] == ReadText(ExtractAndReinsert(ReadText(fs[i].content), reword))
  {
    var reworded := WriteOutputs(map[], ProcessAll(listing, WriteUnits(map[], fs), ParagraphsOnly, reword));
    ProcessedFolder(fs, listing, reword);
    EditsOfOutput(fs, reworded, outListing, reword);
  }

  /** The merger reading back a folder that holds some of the files named by
      `fs` (file i, when present, holding the text read from it with its
      paragraphs reworded) and nothing else: every text read under row number
      i + 2 belongs to a present file and is its text as text mode reads it. */
  lemma {:induction false} EditsOfOutput(fs: seq<UnitFile>, out: map<string, string>, outListing: seq<string>, reword: Backend)
    requires forall i :: 0 <= i < |fs| ==> MergeKey(fs[i].name) == Some(RowId(i))
    requires forall x :: x in out ==> x in Names(fs)
    requires forall i :: 0 <= i < |fs| ==> (fs[i].name in out <==> fs[i].content != [])
    requires forall i :: 0 <= i < |fs| && fs[i].content != [] ==> out[fs[i].name] == ExtractAndReinsert(ReadText(fs[i].content), reword)
    ensures forall i :: 0 <= i < |fs| && RowId(i) in PendingEdits(outListing, out) ==>
              fs[i].content != [] && PendingEdits(outListing, out)[RowId(i)] == ReadText(ExtractAndReinsert(ReadText(fs[i].content), reword))
  {
    var edits := PendingEdits(outListing, out);
    NamesAreRows(fs);
    PendingEditsSpec(outListing, out);
    forall i | 0 <= i < |fs| && RowId(i) in edits
      ensures fs[i].content != []
      ensures edits[RowId(i)] == ReadText(ExtractAndReinsert(ReadText(fs[i].content), reword))
    {
      var j :| 0 <= j < |outListing| && Contribution(outListing[j], out) == Some((RowId(i), edits[RowId(i)]));
      var x := outListing[j];
      assert x in out;
      FileOfRow(fs, x, i);
    }
  }

  /** The table the whole pipeline produces: every data row with a non-empty
      first-column cell has that cell's paragraphs reworded, the cell being
      read in text mode before the rewording and the result read in text mode
      again after it; every other cell, and every row with an empty first
      cell, is kept. */
  function RewordedRows(rows: seq<Row>, reword: Backend): (r: seq<Row>)
    ensures |r| == |rows|
  {
    seq(|rows|, i requires 0 <= i < |rows| =>
      if rows[i].first != [] then Row(ReadText(ExtractAndReinsert(ReadText(rows[i].first), reword)), rows[i].others)
      else rows[i])
  }

  /** The number of data rows whose first-column cell is not empty. */
  function FilledCount(rows: seq<Row>): (n: nat)
    ensures n <= |rows|
  {
    if rows == [] then 0
    else FilledCount(rows[..|rows| - 1]) + (if rows[|rows| - 1].first != [] then 1 else 0)
  }

  /** When exactly the filled rows have a text waiting, the merger reports
      as many updates as there are filled rows. */
  lemma {:induction false} CountOfFilled(rows: seq<Row>, edits: map<nat, string>, n: nat)
    requires n <= |rows|
    requires forall i :: 0 <= i < |rows| ==> (RowId(i) in edits <==> rows[i].first != [])
    ensures CountUpdated(n, edits) == FilledCount(rows[..n])
    decreases n
  {
    if n > 0 {
      CountOfFilled(rows, edits, n - 1);
      assert rows[..n][..n - 1] == rows[..n - 1];
    }
  }

  /** Texts waiting exactly for the filled rows, each the row's cell
      reworded, merge into the reworded table. */
  lemma {:induction false} MergeReworded(rows: seq<Row>, edits: map<nat, string>, reword: Backend)
    requires forall i :: 0 <= i < |rows| ==> (RowId(i) in edits <==> rows[i].first != [])
    requires forall i :: 0 <= i < |rows| && rows[i].first != [] ==>
               edits[RowId(i)] == ReadText(ExtractAndReinsert(ReadText(rows[i].first), reword))
    ensures MergedRows(rows, edits) == RewordedRows(rows, reword)
  {
  }

  /** End to end: extracting a workbook, rewording the unit files paragraph by
      paragraph into a fresh folder and inserting that folder back writes a
      copy whose table is the original with every non-empty description
      reworded (both reads in text mode) and everything else kept, and
      reports one update per non-empty description. */
  lemma {:induction false} ExtractRewordInsert(path: string, t: Table, listing: seq<string>, outListing: seq<string>, reword: Backend)
    requires !IsEmpty(t) && Contains(path, Workbook)
    requires ListsFolder(listing, WriteUnits(map[], ExtractDescriptions(Some(t)).files))
    requires ListsFolder(outListing, WriteOutputs(map[], ProcessAll(listing, WriteUnits(map[], ExtractDescriptions(Some(t)).files), ParagraphsOnly, reword)))
    ensures InsertDescriptions(path, Some(t), Some(Folder(outListing,
              WriteOutputs(map[], ProcessAll(listing, WriteUnits(map[], ExtractDescriptions(Some(t)).files), ParagraphsOnly, reword)))))
            == Merged(NewPath(path), Table(t.labels, RewordedRows(t.rows, reword)), FilledCount(t.rows))
  {
    var fs := ExtractDescriptions(Some(t)).files;
    var reworded := WriteOutputs(map[], ProcessAll(listing, WriteUnits(map[], fs), ParagraphsOnly, reword));
    var edits := PendingEdits(outListing, reworded);
    ExtractionIdentifiers(t);
    ReadBackProcessed(fs, listing, outListing, reword);
    assert |fs| == |t.rows|;
    forall i | 0 <= i < |t.rows|
      ensures RowId(i) in edits <==> t.rows[i].first != []
      ensures t.rows[i].first != [] ==> edits[RowId(i)] == ReadText(ExtractAndReinsert(ReadText(t.rows[i].first), reword))
    {
      assert fs[i].content == t.rows[i].first;
    }
    MergeReworded(t.rows, edits, reword);
    CountOfFilled(t.rows, edits, |t.rows|);
    assert t.rows[..|t.rows|] == t.rows;
    assert NewPath(path) != path;
  }
}

=== FILE: pyint.dfy ===
/** Decimal conversion between non-negative integers and strings: Python's
    `str(n)` for `n >= 0`, and `int(s)` restricted to strings of ASCII digits. */
module PyInt {
  import opened Wrappers

  predicate IsDigit(c: char) {
    '0' <= c <= '9'
  }

  predicate AllDigits(s: string) {
    forall i :: 0 <= i < |s| ==> IsDigit(s[i])
  }

  /** The form `str(n)` produces: at least one digit, and no leading zero
      unless the number is zero itself. */
  predicate IsCanonical(s: string) {
    s != [] && AllDigits(s) && (|s| > 1 ==> s[0] != '0')
  }

  function DigitChar(d: nat): (c: char)
    requires d < 10
    ensures IsDigit(c) && c as int - '0' as int == d
  {
    ('0' as int + d) as char
  }

  /** The number a string of digits denotes, read most significant digit first. */
  function DigitsValue(s: string): nat
    requires AllDigits(s)
  {
    if s == [] then 0
    else 10 * DigitsValue(s[..|s| - 1]) + (s[|s| - 1] as int - '0' as int)
  }

  /** `int(s)` for the strings this model accepts: a non-empty run of ASCII
      digits; anything else is the `ValueError` case, here `None`. */
  function ParseInt(s: string): (r: Option<nat>)
    ensures r.Some? <==> s != [] && AllDigits(s)
  {
    if s != [] && AllDigits(s) then Some(DigitsValue(s)) else None
  }

  /** `str(n)`: the decimal numeral of `n`. It is canonical, and it starts with
      `0` only when `n` is zero. */
  function NatToStr(n: nat): (r: string)
    ensures IsCanonical(r)
    ensures r[0] == '0' <==> n == 0
  {
    if n < 10 then [DigitChar(n)] else NatToStr(n / 10) + [DigitChar(n % 10)]
  }

  /** Reading back the numeral `str(n)` gives `n`. */
  lemma {:induction false} ParseNatToStr(n: nat)
    ensures ParseInt(NatToStr(n)) == Some(n)
  {
    var s := NatToStr(n);
    if n >= 10 {
      ParseNatToStr(n / 10);
      assert s[..|s| - 1] == NatToStr(n / 10);
      assert DigitsValue(s) == 10 * (n / 10) + n % 10;
    }
  }

  /** A string of digits denoting zero consists of zeros only. */
  lemma {:induction false} ZeroValueAllZeros(s: string)
    requires AllDigits(s)
    requires DigitsValue(s) == 0
    ensures forall i :: 0 <= i < |s| ==> s[i] == '0'
  {
    if s != [] {
      ZeroValueAllZeros(s[..|s| - 1]);
      assert forall i :: 0 <= i < |s| - 1 ==> s[i] == s[..|s| - 1][i];
    }
  }

  /** Printing the number a canonical numeral denotes gives that numeral back,
      so `str` and `int` are mutually inverse between `nat` and canonical
      numerals. */
  lemma {:induction false} NatToStrOfCanonical(s: string)
    requires IsCanonical(s)
    ensures NatToStr(DigitsValue(s)) == s
    decreases |s|
  {
    var v := DigitsValue(s);
    if |s| == 1 {
      assert s[..|s| - 1] == [] && s[|s| - 1] == s[0];
      assert v == 10 * DigitsValue([]) + (s[0] as int - '0' as int);
    } else {
      var init := s[..|s| - 1];
      assert init[0] == s[0];
      NatToStrOfCanonical(init);
      var w := DigitsValue(init);
      if w == 0 {
        ZeroValueAllZeros(init);
        assert false;
      }
      var d := s[|s| - 1] as int - '0' as int;
      assert 0 <= d < 10 && v == 10 * w + d;
      assert v / 10 == w && v % 10 == d;
      assert s == init + [s[|s| - 1]];
    }
  }
}

=== FILE: pyio.dfy ===
/** Python's text-mode file reading, as `open(path, 'r', encoding='utf-8')`
    does it on a POSIX system: the default `newline=None` turns on universal
    newlines, so every `\r\n` and every other `\r` comes back as `\n`.
    Writing in text mode on POSIX keeps the text as it is. */
module PyIo {
  import opened PyText

  /** `f.read()` of a file holding `s`: `\r\n` becomes `\n`, and so does a
      `\r` that is not followed by `\n`. The result holds no `\r`, a text
      without `\r` is read back unchanged, and only an empty file reads as
      empty. */
  function ReadText(s: string): (r: string)
    ensures '\r' !in r
    ensures '\r' !in s ==> r == s
    ensures r == [] <==> s == []
    ensures |r| <= |s|
    decreases |s|
  {
    if s == [] then []
    else if s[0] == '\r' then
      if |s| >= 2 && s[1] == '\n' then "\n" + ReadText(s[2..]) else "\n" + ReadText(s[1..])
    else
      assert '\r' !in s ==> '\r' !in s[1..];
      [s[0]] + ReadText(s[1..])
  }

  /** Reading is the two replacements applied one after the other:
      `s.replace("\r\n", "\n").replace("\r", "\n")`. */
  lemma {:induction false} ReadTextIsReplace(s: string)
    ensures ReadText(s) == ReplaceAll(ReplaceAll(s, "\r\n", "\n"), "\r", "\n")
    decreases |s|
  {
    if s == [] {
    } else if |s| == 1 {
      assert ReplaceAll(s, "\r\n", "\n") == s;
      CrStep(s[0], []);
      assert s == [s[0]] + [];
    } else if s[0] == '\r' && s[1] == '\n' {
      ReadTextIsReplace(s[2..]);
      CrLfStep(s);
      CrStep('\n', ReplaceAll(s[2..], "\r\n", "\n"));
    } else {
      ReadTextIsReplace(s[1..]);
      CrLfStep(s);
      CrStep(s[0], ReplaceAll(s[1..], "\r\n", "\n"));
    }
  }

  /** One step of `replace("\r\n", "\n")` on a text of two or more
      characters. */
  lemma {:induction false} CrLfStep(s: string)
    requires |s| >= 2
    ensures ReplaceAll(s, "\r\n", "\n") ==
              if s[0] == '\r' && s[1] == '\n' then "\n" + ReplaceAll(s[2..], "\r\n", "\n")
              else [s[0]] + ReplaceAll(s[1..], "\r\n", "\n")
  {
    if s[0] == '\r' && s[1] == '\n' {
      assert s[..2] == "\r\n";
    } else {
      assert s[..2] != "\r\n";
    }
  }

  /** One step of `replace("\r", "\n")`. */
  lemma {:induction false} CrStep(c: char, x: string)
    ensures ReplaceAll([c] + x, "\r", "\n") == (if c == '\r' then "\n" else [c]) + ReplaceAll(x, "\r", "\n")
  {
    var s := [c] + x;
    assert s[..1] == [c] && s[1..] == x;
  }
}

=== FILE: pypath.dfy ===
/** `os.path.splitext` with POSIX path rules: the extension is the part of the
    last path component from its last dot on, unless that component consists
    of dots up to that point (so `.profile` has no extension). */
module PyPath {

  /** `s.rfind(c)`: the last index holding `c`, or -1. */
  function LastIndexOf(s: string, c: char): (r: int)
    ensures -1 <= r < |s|
    ensures r >= 0 ==> s[r] == c
    ensures forall j :: r < j < |s| ==> s[j] != c
  {
    if s == [] then -1
    else if s[|s| - 1] == c then |s| - 1
    else LastIndexOf(s[..|s| - 1], c)
  }

  /** Some character of `p[lo..hi]` is not a dot. */
  predicate HasStem(p: string, lo: int, hi: int)
    requires 0 <= lo && hi <= |p|
    decreases hi - lo
  {
    lo < hi && (p[lo] != '.' || HasStem(p, lo + 1, hi))
  }

  /** Text that contains neither a dot nor a path separator. */
  predicate PlainExtension(s: string) {
    forall j :: 0 <= j < |s| ==> s[j] != '.' && s[j] != '/'
  }

  /** The root `os.path.splitext(p)[0]`. It is a prefix of `p`; when it is a
      proper prefix, what was cut off is a dot followed by a run free of dots
      and slashes, and the last path component has a character other than a
      dot before that dot (a leading dot does not start an extension); when it is all of `p`, every dot of the last path component
      has only dots before it in that component (there is no extension). */
  function SplitExtRoot(p: string): (root: string)
    ensures |root| <= |p| && root == p[..|root|]
    ensures root != p ==> p[|root|] == '.' && PlainExtension(p[|root| + 1..])
    ensures root != p ==> HasStem(p, LastIndexOf(p, '/') + 1, |root|)
    ensures root == p ==> forall d :: LastIndexOf(p, '/') < d < |p| && p[d] == '.' ==>
              forall q :: LastIndexOf(p, '/') < q < d ==> p[q] == '.'
  {
    var sep := LastIndexOf(p, '/');
    var dot := LastIndexOf(p, '.');
    if dot > sep && HasStem(p, sep + 1, dot) then
      var root := p[..dot];
      assert |root| == dot;
      assert PlainExtension(p[dot + 1..]);
      root
    else if dot > sep then
      NoStemAllDots(p, sep + 1, dot);
      p
    else
      p
  }

  /** Without a stem, the range holds only dots. */
  lemma {:induction false} NoStemAllDots(p: string, lo: int, hi: int)
    requires 0 <= lo && hi <= |p|
    requires !HasStem(p, lo, hi)
    ensures forall q :: lo <= q < hi ==> p[q] == '.'
    decreases hi - lo
  {
    if lo < hi {
      NoStemAllDots(p, lo + 1, hi);
    }
  }

  /** For a name ending in `.txt` the root is the name without `.txt` when
      the last path component has a character other than a dot before
      `.txt`, and the whole name otherwise. */
  lemma {:induction false} SplitExtRootOfTxt(p: string)
    requires |p| >= 4 && p[|p| - 4..] == ".txt"
    ensures HasStem(p, LastIndexOf(p, '/') + 1, |p| - 4) ==> SplitExtRoot(p) == p[..|p| - 4]
    ensures !HasStem(p, LastIndexOf(p, '/') + 1, |p| - 4) ==> SplitExtRoot(p) == p
  {
    assert p[|p| - 4] == '.';
    assert p[|p| - 3] == 't' && p[|p| - 2] == 'x' && p[|p| - 1] == 't';
    assert LastIndexOf(p, '.') == |p| - 4;
    assert LastIndexOf(p, '/') < |p| - 4;
  }
}

=== FILE: pytext.dfy ===
/** The few Python `str` operations the three scripts rely on, written out with
    Python's semantics: `strip()`, `startswith`/`endswith`, `replace` (for a
    single character and for a substring) and `split` on one character. */
module PyText {

  /** Python's `str.isspace()` for one character: the ASCII controls TAB, LF,
      VT, FF, CR, the separators 0x1C..0x1F, SPACE, and the Unicode spaces and
      line/paragraph separators. */
  predicate IsSpace(c: char) {
    || c == ' '
    || ('\t' <= c <= '\r')
    || ('\U{1c}' <= c <= '\U{1f}')
    || c == '\U{85}' || c == '\U{a0}' || c == '\U{1680}'
    || ('\U{2000}' <= c <= '\U{200a}')
    || c == '\U{2028}' || c == '\U{2029}' || c == '\U{202f}'
    || c == '\U{205f}' || c == '\U{3000}'
  }

  predicate AllSpace(s: string) {
    forall i :: 0 <= i < |s| ==> IsSpace(s[i])
  }

  /** A string that `strip()` leaves alone: empty, or neither end is whitespace. */
  predicate IsStripped(s: string) {
    s == [] || (!IsSpace(s[0]) && !IsSpace(s[|s| - 1]))
  }

  /** `s.lstrip()`: the longest suffix of `s` not starting with whitespace. */
  function StripStart(s: string): (r: string)
    ensures |r| <= |s| && r == s[|s| - |r|..]
    ensures AllSpace(s[..|s| - |r|])
    ensures r == [] || !IsSpace(r[0])
  {
    if s != [] && IsSpace(s[0]) then
      var r := StripStart(s[1..]);
      assert r == s[|s| - |r|..] by {
        assert s[1..][|s| - 1 - |r|..] == s[|s| - |r|..];
      }
      SpacePrefixGrows(s, |s| - 1 - |r|);
      r
    else s
  }

  /** `s.rstrip()`: the longest prefix of `s` not ending with whitespace. */
  function StripEnd(s: string): (r: string)
    ensures |r| <= |s| && r == s[..|r|]
    ensures AllSpace(s[|r|..])
    ensures r == [] || !IsSpace(r[|r| - 1])
  {
    if s != [] && IsSpace(s[|s| - 1]) then
      var r := StripEnd(s[..|s| - 1]);
      SpaceSuffixGrows(s, |r|);
      r
    else s
  }

  lemma {:induction false} SpacePrefixGrows(s: string, k: nat)
    requires s != [] && IsSpace(s[0]) && k < |s| && AllSpace(s[1..][..k])
    ensures AllSpace(s[..k + 1])
  {
    forall i | 0 < i <= k ensures IsSpace(s[i]) {
      assert s[i] == s[1..][..k][i - 1];
    }
  }

  lemma {:induction false} SpaceSuffixGrows(s: string, k: nat)
    requires s != [] && IsSpace(s[|s| - 1]) && k < |s| && AllSpace(s[..|s| - 1][k..])
    ensures AllSpace(s[k..])
  {
    forall i | k <= i < |s| - 1 ensures IsSpace(s[i]) {
      assert s[i] == s[..|s| - 1][k..][i - k];
    }
  }

  /** `r` is the piece of `s` starting at `a`, and everything of `s` before and
      after that piece is whitespace. */
  predicate TrimmedAt(s: string, r: string, a: int) {
    0 <= a <= |s| - |r| && r == s[a..a + |r|] && AllSpace(s[..a]) && AllSpace(s[a + |r|..])
  }

  /** `s.strip()`: `s` with leading and trailing whitespace removed. The result
      is a contiguous piece of `s`, everything cut off on either side is
      whitespace, and the result itself has no whitespace at either end. */
  function Strip(s: string): (r: string)
    ensures IsStripped(r)
    ensures exists a :: TrimmedAt(s, r, a)
  {
    StripTrims(s);
    StripEnd(StripStart(s))
  }

  lemma {:induction false} StripTrims(s: string)
    ensures TrimmedAt(s, StripEnd(StripStart(s)), |s| - |StripStart(s)|)
  {
    PrefixOfSuffix(s, StripStart(s), StripEnd(StripStart(s)));
  }

  /** Trimming whitespace off the front and then off the back leaves a piece
      of the original with only whitespace around it. */
  lemma {:induction false} PrefixOfSuffix(s: string, t: string, r: string)
    requires |t| <= |s| && t == s[|s| - |t|..] && AllSpace(s[..|s| - |t|])
    requires |r| <= |t| && r == t[..|r|] && AllSpace(t[|r|..])
    ensures TrimmedAt(s, r, |s| - |t|)
  {
    var a := |s| - |t|;
    assert r == s[a..a + |r|] by {
      forall i | 0 <= i < |r| ensures r[i] == s[a + i] {
        assert r[i] == t[i] == s[a..][i];
      }
    }
    assert AllSpace(s[a + |r|..]) by {
      forall i | a + |r| <= i < |s| ensures IsSpace(s[i]) {
        assert s[i] == t[|r|..][i - a - |r|];
      }
    }
  }

  /** `strip()` is the identity on a string that has no whitespace at its ends. */
  lemma {:induction false} StripOfStripped(s: string)
    requires IsStripped(s)
    ensures Strip(s) == s
  {
  }

  predicate StartsWith(s: string, prefix: string) {
    |prefix| <= |s| && s[..|prefix|] == prefix
  }

  predicate EndsWith(s: string, suffix: string) {
    |suffix| <= |s| && s[|s| - |suffix|..] == suffix
  }

  /** `s.replace(a, b)` for single characters `a` and `b`. */
  function ReplaceChar(s: string, a: char, b: char): (r: string)
    ensures |r| == |s|
    ensures forall i :: 0 <= i < |s| ==> r[i] == (if s[i] == a then b else s[i])
  {
    if s == [] then [] else [if s[0] == a then b else s[0]] + ReplaceChar(s[1..], a, b)
  }

  /** `pat` occurs in `s` starting at index `k`. */
  predicate OccursAt(s: string, pat: string, k: int) {
    0 <= k && k + |pat| <= |s| && s[k..k + |pat|] == pat
  }

  predicate Contains(s: string, pat: string) {
    exists k | 0 <= k <= |s| :: OccursAt(s, pat, k)
  }

  /** `s.replace(pat, rep)` for a non-empty `pat`: occurrences are replaced
      left to right, without overlapping (`ReplaceAllFacts` states what this
      means for the result). */
  function ReplaceAll(s: string, pat: string, rep: string): (r: string)
    requires pat != []
    ensures |rep| >= |pat| ==> |r| >= |s|
    decreases |s|
  {
    if |s| < |pat| then
      s
    else if s[..|pat|] == pat then
      rep + ReplaceAll(s[|pat|..], pat, rep)
    else
      [s[0]] + ReplaceAll(s[1..], pat, rep)
  }

  /** A string without `pat` comes back unchanged, and a string with `pat`
      comes back longer when `rep` is the longer of the two. */
  lemma {:induction false} ReplaceAllFacts(s: string, pat: string, rep: string)
    requires pat != []
    ensures !Contains(s, pat) ==> ReplaceAll(s, pat, rep) == s
    ensures Contains(s, pat) && |rep| > |pat| ==> |ReplaceAll(s, pat, rep)| > |s|
    decreases |s|
  {
    if |s| < |pat| {
      assert !Contains(s, pat) by {
        forall k | 0 <= k <= |s| ensures !OccursAt(s, pat, k) { }
      }
    } else if s[..|pat|] == pat {
      assert OccursAt(s, pat, 0);
    } else {
      ReplaceAllFacts(s[1..], pat, rep);
      ContainsAfterFirst(s, pat);
    }
  }

  /** Where `pat` does not start the string, `replace` keeps the first
      character and carries on with the rest. */
  lemma {:induction false} ReplaceAllSkip(s: string, pat: string, rep: string)
    requires |pat| <= |s| && s[..|pat|] != pat
    ensures ReplaceAll(s, pat, rep) == [s[0]] + ReplaceAll(s[1..], pat, rep)
  {
  }

  /** Replacing a pattern that occurs only at the very end of the string,
      for a pattern whose first character occurs nowhere else in it: only
      that last occurrence is replaced. */
  lemma {:induction false} ReplaceAllTrailing(base: string, pat: string, rep: string)
    requires pat != [] && pat[0] !in pat[1..]
    requires !Contains(base, pat)
    ensures ReplaceAll(base + pat, pat, rep) == base + rep
    decreases |base|
  {
    var s := base + pat;
    if base == [] {
      assert s == pat && s[..|pat|] == pat && s[|pat|..] == [];
    } else {
      PatternNotAtFront(base, pat);
      ReplaceAllSkip(s, pat, rep);
      ContainsOfTail(base, pat);
      assert s[1..] == base[1..] + pat;
      ReplaceAllTrailing(base[1..], pat, rep);
      assert [base[0]] + (base[1..] + rep) == base + rep;
    }
  }

  /** The first occurrence of such a pattern is replaced, and replacing
      carries on over everything after it: `replace` is not limited to one
      occurrence. */
  lemma {:induction false} ReplaceAllFirst(base: string, pat: string, rest: string, rep: string)
    requires pat != [] && pat[0] !in pat[1..]
    requires !Contains(base, pat)
    ensures ReplaceAll(base + pat + rest, pat, rep) == base + (rep + ReplaceAll(rest, pat, rep))
    decreases |base|
  {
    var x := rep + ReplaceAll(rest, pat, rep);
    if base == [] {
      ReplaceAllAtFront(pat, rest, rep);
      assert base + pat + rest == pat + rest && base + x == x;
    } else {
      ContainsOfTail(base, pat);
      ReplaceAllFirst(base[1..], pat, rest, rep);
      ReplaceAllBeforeFirst(base, pat, rest, rep, x);
    }
  }

  /** A pattern at the front is replaced, and replacing carries on after it. */
  lemma {:induction false} ReplaceAllAtFront(pat: string, rest: string, rep: string)
    requires pat != []
    ensures ReplaceAll(pat + rest, pat, rep) == rep + ReplaceAll(rest, pat, rep)
  {
    var s := pat + rest;
    assert s[..|pat|] == pat && s[|pat|..] == rest;
  }

  /** One step of `ReplaceAllFirst`: the first character of `base` is kept,
      whatever the rest turns into. */
  lemma {:induction false} ReplaceAllBeforeFirst(base: string, pat: string, rest: string, rep: string, x: string)
    requires pat != [] && pat[0] !in pat[1..]
    requires base != [] && !Contains(base, pat)
    requires ReplaceAll(base[1..] + pat + rest, pat, rep) == base[1..] + x
    ensures ReplaceAll(base + pat + rest, pat, rep) == base + x
  {
    var s := base + pat + rest;
    PatternNotAtFront(base, pat);
    assert s[..|pat|] == (base + pat)[..|pat|];
    ReplaceAllSkip(s, pat, rep);
    assert s[1..] == base[1..] + pat + rest;
    assert [base[0]] + (base[1..] + x) == base + x;
  }

  lemma {:induction false} PatternNotAtFront(base: string, pat: string)
    requires pat != [] && pat[0] !in pat[1..]
    requires base != [] && !Contains(base, pat)
    ensures (base + pat)[..|pat|] != pat
  {
    var s := base + pat;
    if |base| >= |pat| {
      assert !OccursAt(base, pat, 0);
      assert s[..|pat|] == base[..|pat|];
    } else {
      assert s[|base|] == pat[0];
      assert pat[|base|] == pat[1..][|base| - 1];
    }
  }

  /** An occurrence in the tail of `s` is an occurrence in `s`. */
  lemma {:induction false} ContainsOfTail(s: string, pat: string)
    requires s != []
    ensures Contains(s[1..], pat) ==> Contains(s, pat)
  {
    if Contains(s[1..], pat) {
      var k :| 0 <= k <= |s| - 1 && OccursAt(s[1..], pat, k);
      assert s[k + 1..k + 1 + |pat|] == s[1..][k..k + |pat|];
      assert OccursAt(s, pat, k + 1);
    }
  }

  /** When `pat` does not occur at the very start of `s`, it occurs in `s` iff
      it occurs in `s` without its first character. */
  lemma {:induction false} ContainsAfterFirst(s: string, pat: string)
    requires |pat| <= |s| && s != []
    requires s[..|pat|] != pat
    ensures Contains(s, pat) <==> Contains(s[1..], pat)
  {
    if Contains(s, pat) {
      var k :| 0 <= k <= |s| && OccursAt(s, pat, k);
      assert k != 0;
      assert s[1..][k - 1..k - 1 + |pat|] == s[k..k + |pat|];
      assert OccursAt(s[1..], pat, k - 1);
    }
    if Contains(s[1..], pat) {
      var k :| 0 <= k <= |s| - 1 && OccursAt(s[1..], pat, k);
      assert s[k + 1..k + 1 + |pat|] == s[1..][k..k + |pat|];
      assert OccursAt(s, pat, k + 1);
    }
  }

  /** `s.split(sep)` for a one-character separator: the pieces between
      separators, empty pieces included. There is always at least one piece;
      `SplitOnPieces` shows the pieces are separator-free and join back to `s`. */
  function SplitOn(s: string, sep: char): (parts: seq<string>)
    ensures |parts| >= 1
  {
    if s == [] then
      [[]]
    else
      var t := SplitOn(s[1..], sep);
      if s[0] == sep then [[]] + t else [[s[0]] + t[0]] + t[1..]
  }

  /** The pieces of a split contain no separator, and joining them with the
      separator gives back the split string. */
  lemma {:induction false} SplitOnPieces(s: string, sep: char)
    ensures forall i :: 0 <= i < |SplitOn(s, sep)| ==> sep !in SplitOn(s, sep)[i]
    ensures Join(SplitOn(s, sep), sep) == s
    decreases |s|
  {
    if s != [] {
      var t := SplitOn(s[1..], sep);
      SplitOnPieces(s[1..], sep);
      var parts := SplitOn(s, sep);
      if s[0] == sep {
        JoinAfterEmpty(t, sep);
        assert s == [sep] + s[1..];
      } else {
        forall i | 1 <= i < |parts| ensures sep !in parts[i] {
          assert parts[i] == t[i];
        }
        JoinExtendFirst(s[0], t, sep);
        assert s == [s[0]] + s[1..];
      }
    }
  }

  /** An empty first piece puts a separator in front of the rest. */
  lemma {:induction false} JoinAfterEmpty(t: seq<string>, sep: char)
    requires |t| >= 1
    ensures Join([[]] + t, sep) == [sep] + Join(t, sep)
  {
    assert ([[]] + t)[1..] == t;
  }

  /** Growing the first piece by one character in front grows the join the
      same way. */
  lemma {:induction false} JoinExtendFirst(c: char, t: seq<string>, sep: char)
    requires |t| >= 1
    ensures Join([[c] + t[0]] + t[1..], sep) == [c] + Join(t, sep)
  {
    var parts := [[c] + t[0]] + t[1..];
    if |t| > 1 {
      assert parts[1..] == t[1..];
    }
  }

  /** `sep.join(parts)`, the inverse of `SplitOn`. */
  function Join(parts: seq<string>, sep: char): string
    requires |parts| >= 1
  {
    if |parts| == 1 then parts[0] else parts[0] + [sep] + Join(parts[1..], sep)
  }

  /** Splitting a string whose first separator follows `head` yields `head`
      first and then the pieces of what follows that separator. */
  lemma {:induction false} SplitOnAfterHead(head: string, sep: char, tail: string)
    requires sep !in head
    ensures SplitOn(head + [sep] + tail, sep) == [head] + SplitOn(tail, sep)
    decreases |head|
  {
    var s := head + [sep] + tail;
    if head == [] {
      assert s[1..] == tail;
    } else {
      assert s[1..] == head[1..] + [sep] + tail;
      SplitOnAfterHead(head[1..], sep, tail);
      assert [head[0]] + head[1..] == head;
    }
  }

  /** Splitting the joined pieces gives the pieces back, as long as no piece
      contains the separator. */
  lemma {:induction false} SplitOnJoin(parts: seq<string>, sep: char)
    requires |parts| >= 1
    requires forall i :: 0 <= i < |parts| ==> sep !in parts[i]
    ensures SplitOn(Join(parts, sep), sep) == parts
    decreases |parts|
  {
    if |parts| > 1 {
      SplitOnJoin(parts[1..], sep);
      SplitOnAfterHead(parts[0], sep, Join(parts[1..], sep));
      assert [parts[0]] + parts[1..] == parts;
    } else {
      SplitOnNoSep(parts[0], sep);
    }
  }

  /** The first two fields of a string whose first two separators follow
      `a` and then `b`. */
  lemma {:induction false} SplitTwoFields(a: string, b: string, sep: char, rest: string)
    requires sep !in a && sep !in b
    ensures SplitOn(a + [sep] + b + [sep] + rest, sep) == [a, b] + SplitOn(rest, sep)
  {
    assert a + [sep] + b + [sep] + rest == a + [sep] + (b + [sep] + rest);
    SplitOnAfterHead(a, sep, b + [sep] + rest);
    SplitOnAfterHead(b, sep, rest);
  }

  /** A string with exactly one separator, after `a`, splits into two fields. */
  lemma {:induction false} SplitOneSep(a: string, sep: char, b: string)
    requires sep !in a && sep !in b
    ensures SplitOn(a + [sep] + b, sep) == [a, b]
  {
    SplitOnAfterHead(a, sep, b);
    SplitOnNoSep(b, sep);
  }

  /** A string without the separator splits into itself alone. */
  lemma {:induction false} SplitOnNoSep(s: string, sep: char)
    requires sep !in s
    ensures SplitOn(s, sep) == [s]
    decreases |s|
  {
    if s != [] {
      SplitOnNoSep(s[1..], sep);
      assert [s[0]] + s[1..] == s;
    }
  }
}

=== FILE: rowids.dfy ===
/** The row-identifier protocol shared by the three scripts: extract.py writes
    one unit file per data row, named after the row's spreadsheet row number;
    process_descriptions.py and insert.py read that number back from the name,
    each with its own parser. */
module RowIds {
  import opened Wrappers
  import opened PyText
  import opened PyInt
  import opened PyPath

  /** The spreadsheet row number of the data row at 0-based position `index`:
      row 1 holds the header, so the first data row is row 2. */
  function RowId(index: nat): nat {
    index + 2
  }

  /** The column label as it appears in a unit file name: every space becomes
      an underscore, nothing else changes. */
  function SafeLabel(column: string): (r: string)
    ensures |r| == |column|
    ensures ' ' !in r
    ensures forall i :: 0 <= i < |column| && column[i] == ' ' ==> r[i] == '_'
    ensures forall i :: 0 <= i < |column| && column[i] != ' ' ==> r[i] == column[i]
  {
    ReplaceChar(column, ' ', '_')
  }

  /** `f"row_{index + 2}_col_{column.replace(' ', '_')}.txt"`. */
  function UnitFileName(index: nat, column: string): string {
    "row_" + NatToStr(RowId(index)) + "_col_" + SafeLabel(column) + ".txt"
  }

  /** The directory filter both readers apply: `row_` prefix and `.txt` suffix. */
  predicate IsUnitName(name: string) {
    StartsWith(name, "row_") && EndsWith(name, ".txt")
  }

  /** `int(s.split("_")[1])`, with `IndexError` and `ValueError` as `None`. */
  function SecondFieldNumber(s: string): Option<nat> {
    var parts := SplitOn(s, '_');
    if |parts| < 2 then None else ParseInt(parts[1])
  }

  /** The sort key of the batch driver (`get_row_number`): the number in the
      second `_`-separated field of the FULL file name, or +infinity. */
  datatype RowKey = Finite(n: nat) | Infinite

  function SortKey(name: string): RowKey {
    match SecondFieldNumber(name)
    case Some(n) => Finite(n)
    case None => Infinite
  }

  /** The merger's parser: the second `_`-separated field of the name with
      its extension removed, read as an integer; `None` when it fails. */
  function MergeKey(name: string): Option<nat> {
    SecondFieldNumber(SplitExtRoot(name))
  }

  /** A name of the shape `row_<digits>_<rest>` carries the number of its
      digits in the second field. */
  lemma {:induction false} SecondFieldOfRowName(d: string, rest: string)
    requires AllDigits(d)
    ensures SecondFieldNumber("row_" + d + "_" + rest) == ParseInt(d)
  {
    assert '_' !in d by {
      assert forall i :: 0 <= i < |d| ==> IsDigit(d[i]);
    }
    assert "row_" + d + "_" + rest == "row" + ['_'] + d + ['_'] + rest;
    SplitTwoFields("row", d, '_', rest);
  }

  /** The number comes from the text between the first and the second `_`
      (or the end): whatever precedes the first `_` and whatever follows the
      second one play no part. */
  lemma {:induction false} SecondFieldOf(a: string, b: string, rest: string)
    requires '_' !in a && '_' !in b
    requires rest == [] || rest[0] == '_'
    ensures SecondFieldNumber(a + "_" + b + rest) == ParseInt(b)
    ensures SortKey(a + "_" + b + rest) == if ParseInt(b).Some? then Finite(ParseInt(b).value) else Infinite
  {
    if rest == [] {
      assert a + "_" + b + rest == a + ['_'] + b;
      SplitOneSep(a, '_', b);
    } else {
      assert a + "_" + b + rest == a + ['_'] + b + ['_'] + rest[1..];
      SplitTwoFields(a, b, '_', rest[1..]);
    }
  }

  /** A name without any `_` has no second field: `parts[1]` raises
      `IndexError`, so the batch driver sorts it last and the merger skips it. */
  lemma {:induction false} NoSecondField(name: string)
    requires '_' !in name
    ensures SecondFieldNumber(name) == None
    ensures SortKey(name) == Infinite
    ensures MergeKey(name) == None
  {
    SplitOnNoSep(name, '_');
    var root := SplitExtRoot(name);
    assert forall i :: 0 <= i < |root| ==> root[i] == name[i];
    SplitOnNoSep(root, '_');
  }

  /** Cross-file round trip: every name the extractor generates passes both
      directory filters, and both parsers recover the row number `index + 2`
      from it, whatever the column label. */
  lemma {:induction false} UnitNameRoundTrip(index: nat, column: string)
    ensures IsUnitName(UnitFileName(index, column))
    ensures SortKey(UnitFileName(index, column)) == Finite(RowId(index))
    ensures MergeKey(UnitFileName(index, column)) == Some(RowId(index))
  {
    UnitNameSortKey(index, column);
    UnitNameMergeKey(index, column);
  }

  /** The batch driver reads the row number from the whole generated name. */
  lemma {:induction false} UnitNameSortKey(index: nat, column: string)
    ensures IsUnitName(UnitFileName(index, column))
    ensures SortKey(UnitFileName(index, column)) == Finite(RowId(index))
  {
    var d := NatToStr(RowId(index));
    var name := UnitFileName(index, column);
    ParseNatToStr(RowId(index));
    assert name == "row_" + d + "_" + ("col_" + SafeLabel(column) + ".txt");
    SecondFieldOfRowName(d, "col_" + SafeLabel(column) + ".txt");
    assert name[..4] == "row_";
    assert name[|name| - 4..] == ".txt";
  }

  /** The merger reads the same row number from the name without `.txt`. */
  lemma {:induction false} UnitNameMergeKey(index: nat, column: string)
    ensures MergeKey(UnitFileName(index, column)) == Some(RowId(index))
  {
    var d := NatToStr(RowId(index));
    var tail := "col_" + SafeLabel(column);
    var name := UnitFileName(index, column);
    ParseNatToStr(RowId(index));
    assert name == "row_" + d + "_" + (tail + ".txt");
    SplitExtRootOfTxt(name);
    if SplitExtRoot(name) != name {
      assert SplitExtRoot(name) == "row_" + d + "_" + tail;
      SecondFieldOfRowName(d, tail);
    } else {
      SecondFieldOfRowName(d, tail + ".txt");
    }
  }

  /** Different rows never share a unit file name, whatever the labels. */
  lemma {:induction false} UnitFileNameInjective(i: nat, j: nat, column: string, column': string)
    requires i != j
    ensures UnitFileName(i, column) != UnitFileName(j, column')
  {
    UnitNameRoundTrip(i, column);
    UnitNameRoundTrip(j, column');
  }

  /** The two parsers disagree: a name without a field after the number is
      unparsable for the batch driver (it sorts last) but names row 5 for the
      merger. */
  lemma {:induction false} ParsersDisagree()
    ensures IsUnitName("row_5.txt")
    ensures SortKey("row_5.txt") == Infinite
    ensures MergeKey("row_5.txt") == Some(5)
  {
    SplitShortName();
    RootOfShortName();
    SplitShortRoot();
  }

  lemma {:induction false} SplitShortName()
    ensures SplitOn("row_5.txt", '_') == ["row", "5.txt"]
    ensures ParseInt("5.txt") == None
  {
    assert "row_5.txt" == "row" + ['_'] + "5.txt";
    SplitOneSep("row", '_', "5.txt");
    assert !IsDigit("5.txt"[1]);
  }

  lemma {:induction false} RootOfShortName()
    ensures SplitExtRoot("row_5.txt") == "row_5"
  {
    assert LastIndexOf("row_5.txt", '/') == -1;
    var name := "row_5.txt";
    var dot := LastIndexOf(name, '.');
    assert name[5] == '.' && name[6] == 't' && name[7] == 'x' && name[8] == 't';
    assert dot == 5;
    assert HasStem("row_5.txt", 0, 5);
  }

  lemma {:induction false} SplitShortRoot()
    ensures SplitOn("row_5", '_') == ["row", "5"]
    ensures ParseInt("5") == Some(5)
  {
    assert "row_5" == "row" + ['_'] + "5";
    SplitOneSep("row", '_', "5");
    assert DigitsValue("5") == 5;
  }
}

=== FILE: tables.dfy ===
/** The spreadsheet as pandas presents it to extract.py and insert.py: a header
    of column labels and the data rows below it. Every cell is modelled as the
    string pandas would hand back for it. */
module Tables {

  /** One data row: the cell of the first column and the cells of the others. */
  datatype Row = Row(first: string, others: seq<string>)

  datatype Table = Table(labels: seq<string>, rows: seq<Row>)

  /** `df.empty`: the frame has no column or no row. */
  predicate IsEmpty(t: Table) {
    |t.labels| == 0 || |t.rows| == 0
  }
}

=== FILE: wrappers.dfy ===
/** The optional-value datatype used throughout the model: a Python value that
    may be `None`. */
module Wrappers {

  datatype Option<+T> = None | Some(value: T) {

    /** Returns the value in Some, or `default` when None. */
    function GetOr(default: T): T {
      match this
      case Some(v) => v
      case None => default
    }
  }
}
